=== FILE: README.md ===
# MyCMD command interpreter, modelled in Dafny

MyCMD is a browser "fake terminal". The user types commands into it to
manage categorised lists of links and notes, aliases that open URLs, and a
few session analytics. This project models its command interpreter as pure
step functions over immutable state. A command and the current state go in.
The new state, the transcript lines to append, and whether the command was
handled come out.

The model has these parts:

- `Text` models the JavaScript string operations the code relies on. These
  are `trim` over the JavaScript white-space set, ASCII `toLowerCase`,
  `startsWith`, `includes`, and decimal printing and parsing.
- `Dict` models JavaScript objects used as dictionaries. A map is paired
  with the insertion order that `Object.keys` and `Object.entries` follow.
- `Regex` models the unanchored regular expressions the commands are parsed
  with, as small parsers. `Exec` returns the leftmost match, as
  `String.prototype.match` does. In the patterns, `\s` is the JavaScript
  white-space set, `\w` is `[A-Za-z0-9_]`, `.` excludes line terminators,
  and `(.+?)` is lazy.
- `TerminalUtils` covers `src/utils/terminalUtils.js`: URL normalisation,
  the link heuristic, duplicate detection and autocompletion.
- `DataManager` covers `src/modules/dataManager.js`. It handles
  `categories`, `addcat`, `removecat`, `add` and `remove`, plus the display
  of a category by its name.
- `AliasManager` covers `src/modules/aliasManager.js`. It creates, lists,
  removes and opens aliases, in a fixed dispatch order.
- `UsageSort` models the stable descending sort and the top five used by
  `stats`.
- `CommandHandlers` covers `src/modules/commandHandlers.js`. It includes the
  uptime arithmetic (with JavaScript's truncating `%`), `stats`, `uptime`,
  `grep`, `clear`, and the utility router.
- `Terminal` covers `handleCommand`, `handleSubmit` and `handleKeyDown` of
  `src/components/Terminal.jsx`. This is the secret-word gate, the older
  inline dispatcher, the recording of submitted commands, and arrow-key
  navigation through them. The inline dispatcher is modelled as written,
  separately from the modules. Where its messages match the modules', it
  reuses their steps. It differs in two ways:
  - It shows a category typed by its exact name before it tries `add` and
    `remove`.
  - It removes by name with a literal comparison, with a fallback to the
    normalised form only in the `links` category.

Two behaviours worth knowing, both modelled as the code has them:

- Unlike `normalizeURL`, alias creation does not always produce a fully
  qualified target. It prefixes `https://` only when the typed URL does not
  start with the lowercase text `http`, so `httpbin.org` is stored without a
  protocol.
- For a negative elapsed time, the uptime components come out at most zero.
  The minutes can reach -60, because `Math.floor` and `%` disagree on
  negative numbers.

## Model

| member | source | states |
|---|---|---|
| TerminalUtils.NormalizeURL | src/utils/terminalUtils.js:11-16 | the result always has an `http://`/`https://` prefix in any letter case; a text that has one is returned unchanged, any other gets `https://` in front |
| TerminalUtils.NormalizeIdempotent | src/utils/terminalUtils.js:11-16 | normalising twice is normalising once |
| TerminalUtils.NormalizedIsURL | src/utils/terminalUtils.js:11-30 | every normalised text passes the link heuristic |
| TerminalUtils.IsURLIffLastDot | src/utils/terminalUtils.js:23-30 | a text looks like a link iff it has the protocol prefix or the text after its last dot is two or more ASCII letters, so the optional second extension group adds nothing |
| TerminalUtils.ExtensionExamples | src/utils/terminalUtils.js:28-29 | `file.txt` looks like a link and `a.b1` does not |
| TerminalUtils.IsURLIgnoresCase | src/utils/terminalUtils.js:23-30 | the link heuristic gives the same answer for a text and its lower-cased form |
| TerminalUtils.CanonIdempotent | src/utils/terminalUtils.js:43-46 | the comparison form of an entry (normalised iff it looks like a link) is stable, and it looks like a link iff the entry does |
| TerminalUtils.SomeMatchIff | src/utils/terminalUtils.js:45-53 | the `some` scan succeeds iff some entry, in comparison form when asked, equals the key ignoring case |
| TerminalUtils.IsDuplicateIff | src/utils/terminalUtils.js:39-55 | nothing duplicates into an absent or empty category; a plain item duplicates an entry equal to it ignoring case; a link item duplicates an entry whose comparison form equals its normalised form ignoring case |
| TerminalUtils.DuplicateIgnoresCase | src/utils/terminalUtils.js:39-55 | two items that differ only in letter case are duplicates of exactly the same entries |
| TerminalUtils.BareDomainDuplicatesLink | src/utils/terminalUtils.js:43-48 | `a.com` duplicates a stored `https://A.com` |
| TerminalUtils.FirstExtending | src/utils/terminalUtils.js:71-73 | finds the first command in list order whose lower-cased form strictly extends the input, or reports that none does |
| TerminalUtils.AutoComplete | src/utils/terminalUtils.js:64-81 | empty when the input is empty or blank or the user is not logged in; otherwise the first strictly extending command's own characters after the length of the trimmed input, which complete the lower-cased input to that command ignoring case; empty iff there is none |
| Regex.Exec | src/modules/dataManager.js:74 | a result is the match at some position with no match at any earlier position, that is the leftmost match; no result iff the pattern matches at no position |
| Regex.QuotedThenWordRoundTrip | src/modules/dataManager.js:74 | `kw "item" sep word` is parsed back into the item and the word when the item holds no quote or line break |
| Regex.DigitsThenWordRoundTrip | src/modules/dataManager.js:105 | `kw digits sep word` is parsed back into the digits and the word |
| Regex.QuotedOrWordRoundTripWord | src/modules/dataManager.js:34 | `kw word` is parsed back into the word by the alternation's second branch |
| Regex.QuotedOrWordRoundTripQuoted | src/modules/dataManager.js:34 | `kw "name"` is parsed back into the name by the alternation's first branch |
| Text.DigitsRoundTrip | src/modules/dataManager.js:108 | printing a number in decimal and parsing it back gives the number |
| Dict.Put | src/modules/dataManager.js:40 | spreading in a key sets its value; a new key goes to the end of the key order and an existing key keeps its place |
| Dict.Remove | src/modules/dataManager.js:60-61 | deleting a key removes exactly that key from the map and cuts it out of the key order, the other keys keeping their order |
| Dict.RemoveAfterPut | src/modules/dataManager.js:40-61 | deleting a key that was just added restores the dictionary, key order included |
| DataManager.CategoryLines | src/modules/dataManager.js:23-26 | one `i. key (n items)` line per category, numbered from 1 in key order |
| DataManager.ListCategories | src/modules/dataManager.js:18-29 | `categories`/`cats` lists every category in key order, or the "No categories found" hint when there is none, and leaves the store unchanged |
| DataManager.CreateCategory | src/modules/dataManager.js:33-47 | a new name gets an empty list appended to the key order, with the `Created category` line; an existing name (the `already exists.` line) or an unparsable command (the usage line) leaves the store unchanged |
| DataManager.DeleteCategory | src/modules/dataManager.js:51-69 | only an existing, empty category is deleted, exactly as `delete` does (the other categories keep their order), with the `Removed category` line; an absent or non-empty category or an unparsable command leaves the store unchanged with the matching message |
| DataManager.Stored | src/modules/dataManager.js:80-82 | the stored form looks like a link iff the typed item does |
| DataManager.AddItem | src/modules/dataManager.js:73-99 | a duplicate or an unparsable command leaves the store unchanged; otherwise the normalised item is appended to its category, which is created when absent, and every other category is untouched |
| DataManager.RemoveAt | src/modules/dataManager.js:113 | removes exactly the entry at the position and keeps the others in order |
| DataManager.Filter | src/modules/dataManager.js:130-135 | keeps each accepted value as many times as it occurs and drops every rejected one, and keeps the whole list when it accepts all |
| DataManager.FilterAppend | src/modules/dataManager.js:130-135 | filtering a concatenation filters each part in place, so the kept entries stay in their original order |
| DataManager.FilterCutsOne | src/modules/dataManager.js:130-135 | when exactly one entry is rejected, filtering cuts out that entry and leaves the others in order |
| DataManager.RemoveById | src/modules/dataManager.js:106-123 | an ID within `1..n` removes exactly that entry; an out-of-range ID, or an absent or empty category, changes nothing, each with its message |
| DataManager.RemoveByName | src/modules/dataManager.js:126-146 | removes exactly the entries whose comparison form equals the item's, compared case-sensitively; no match or an absent category changes nothing |
| DataManager.RemoveByNameCutsOne | src/modules/dataManager.js:126-146 | removing an item that matches exactly one entry cuts out that entry, keeps the others in order, and leaves every other category alone |
| DataManager.RemoveMatched | src/modules/dataManager.js:103-152 | given the matches of the two removal patterns (the `remove` branch, `RemoveItem`, passes it the leftmost match of each): the ID form wins over the name form, the category order never changes, and when neither matched nothing changes and the syntax message is shown |
| DataManager.Classify | src/modules/dataManager.js:18-103 | the exact conditions under which each branch of the handler is taken, in the order the code tests them |
| DataManager.HandleDataCommands | src/modules/dataManager.js:16-156 | handled iff the command is a listing or starts with `add` or `remove`; each class of command goes to its own step, echoing the command |
| DataManager.ItemLines | src/modules/dataManager.js:172-175 | one numbered line per item, with the link or text marker |
| DataManager.HandleCategoryDisplay | src/modules/dataManager.js:165-182 | handled iff the trimmed command is a category; an empty one is reported empty, otherwise every item is listed, and the store is never changed |
| DataManager.ItemLinesAppend | src/modules/dataManager.js:172-175 | one more item adds one more numbered line at the end and leaves the earlier lines as they were |
| DataManager.DisplayAfterAdd | src/modules/dataManager.js:165-182 | after a new item is added to a category, showing it lists the earlier items as before and then the stored item under the next number |
| DataManager.AddCommandParses | src/modules/dataManager.js:74 | the canonical `add "item" in c` parses into the item and the category |
| DataManager.RemoveIdCommandParses | src/modules/dataManager.js:105-108 | the canonical `remove N from c` parses into N and the category |
| DataManager.AddIdempotent | src/modules/dataManager.js:73-95 | repeating an `add` leaves the store as the first one left it |
| DataManager.AddThenRemoveLast | src/modules/dataManager.js:73-123 | adding a fresh item to an existing category and then removing it by its new ID restores the store |
| DataManager.CreateThenDelete | src/modules/dataManager.js:33-65 | creating a new word-named category and then deleting it restores the store |
| DataManager.LinesAfterPut | src/modules/dataManager.js:23-26 | a new empty category adds one `name (0 items)` line, numbered next, after the unchanged earlier lines |
| DataManager.LinesAfterRemove | src/modules/dataManager.js:23-26 | deleting a category drops its line: the lines ahead of it are unchanged and the later ones move up one number |
| DataManager.ListingAfterCreate | src/modules/dataManager.js:18-47 | after `addcat name` for a new category, the category listing is the old one plus one `name (0 items)` line at the end |
| DataManager.ListingAfterDelete | src/modules/dataManager.js:18-69 | after `removecat name` for an empty category, its line is gone from the listing and the later lines move up one number |
| AliasManager.AliasTarget | src/modules/aliasManager.js:30 | the target equals the typed URL iff it already starts with lowercase `http`, and is otherwise `https://` followed by the URL |
| AliasManager.AliasTargetVersusNormalize | src/modules/aliasManager.js:30 | the alias target agrees with URL normalisation exactly when the URL's protocol, if any, is spelled in lower case: without a protocol iff it does not start with `http`, with one iff it starts with lowercase `http` |
| AliasManager.CreateAlias | src/modules/aliasManager.js:19-37 | bad syntax (an error line) or a name already bound leaves the registry unchanged; otherwise exactly that name is bound to the target, a new name going to the end of the key order |
| AliasManager.HandleAliasCreation | src/modules/aliasManager.js:16-19 | handled iff the command starts with `alias `, and then decided by the leftmost match of the alias pattern |
| AliasManager.AliasLines | src/modules/aliasManager.js:54 | one `i. name -> url` line per alias, numbered from 1 in key order |
| AliasManager.HandleAliasList | src/modules/aliasManager.js:47-61 | handled iff the command is `aliaslist`; a count header and every alias in key order, or "No aliases found.", with the registry unchanged |
| AliasManager.RemovalName | src/modules/aliasManager.js:74 | the name is exactly the text after the first twelve characters (`removealias `), trimmed |
| AliasManager.RemoveAlias | src/modules/aliasManager.js:75-89 | an empty name gives the usage line, an unbound one the not-found line, and a bound one is deleted alone with its old URL reported |
| AliasManager.HandleAliasRemoval | src/modules/aliasManager.js:71-74 | handled iff the command starts with `removealias `, and then decided by the trimmed name after it |
| AliasManager.HandleAliasExecution | src/modules/aliasManager.js:99-106 | handled iff the command is exactly a bound alias; that alias's URL is opened and reported, and nothing changes |
| AliasManager.HandleAliasCommands | src/modules/aliasManager.js:116-124 | creation, listing, removal, then execution, each reply being that handler's own; not handled iff none applies, and a URL is opened iff only execution applies |
| AliasManager.CreateThenOpen | src/modules/aliasManager.js:16-124 | after creating an alias, typing its name opens its target |
| AliasManager.CreateThenRemove | src/modules/aliasManager.js:16-90 | creating a new alias and then removing it restores the registry |
| AliasManager.AliasListIsNeverOpened | src/modules/aliasManager.js:116-124 | `aliaslist` lists and never opens an alias, even one named `aliaslist` |
| AliasManager.AliasTargetMayLackProtocol | src/modules/aliasManager.js:30 | a URL that starts with `http` but with no `http://` or `https://` is stored without a protocol, unlike URL normalisation |
| AliasManager.HttpbinExample | src/modules/aliasManager.js:30 | example: `httpbin.org` has no protocol, yet it is stored as typed because it starts with `http` |
| AliasManager.LinesAfterPut | src/modules/aliasManager.js:54 | a new alias adds one `name -> url` line, numbered next, after the unchanged earlier lines |
| AliasManager.LinesAfterRemove | src/modules/aliasManager.js:54 | deleting an alias drops its line: the lines ahead of it are unchanged and the later ones move up one number |
| AliasManager.ListingAfterCreate | src/modules/aliasManager.js:16-61 | after `alias "url" as name` for a new name, the `aliaslist` lines are the old ones plus one line for the new alias at the end |
| AliasManager.ListingAfterRemove | src/modules/aliasManager.js:47-90 | after `removealias name` for a bound alias, its line is gone from the `aliaslist` lines and the later lines move up one number |
| UsageSort.Entries | src/modules/commandHandlers.js:33 | the frequency entries in key order |
| UsageSort.Insert | src/modules/commandHandlers.js:34 | inserting keeps the list sorted by non-increasing count and adds exactly the one entry |
| UsageSort.SortDesc | src/modules/commandHandlers.js:34 | the result is a permutation of the input, sorted by non-increasing count |
| UsageSort.SortDescStable | src/modules/commandHandlers.js:34 | entries with equal counts keep their original relative order |
| UsageSort.TopFive | src/modules/commandHandlers.js:33-35 | at most five entries (all, when fewer), sorted, drawn from the input, and exactly the leading entries of the stable sort, so ties are cut in frequency-map order |
| UsageSort.TopFiveIsTop | src/modules/commandHandlers.js:33-35 | an entry used more often than a listed one is listed too |
| CommandHandlers.JsRem | src/modules/commandHandlers.js:14-15 | the truncating remainder: same sign as the dividend and smaller than the divisor in size |
| CommandHandlers.FormatUptime | src/modules/commandHandlers.js:11-17 | the total is the elapsed time in whole seconds, rounded down; for a non-negative time, hours, minutes below 60 and seconds below 60 add up to it |
| CommandHandlers.SecondsDecompose | src/modules/commandHandlers.js:13-15 | hours, minutes and seconds recombine into the total |
| CommandHandlers.HandleStats | src/modules/commandHandlers.js:28-46 | handled iff the command is `stats`; the header, the uptime and the command count as given, then the top five usage lines or the placeholder |
| CommandHandlers.HandleUptime | src/modules/commandHandlers.js:55-65 | handled iff the command is `uptime`; the uptime and the start time |
| CommandHandlers.ItemHits | src/modules/commandHandlers.js:135-139 | exactly the matching items of one category, by index |
| CommandHandlers.CategoryHits | src/modules/commandHandlers.js:128-140 | the category's name hit when its name matches, then its matching items |
| CommandHandlers.DataHits | src/modules/commandHandlers.js:128-141 | exactly the matching names and items of every category, in key order |
| CommandHandlers.AliasHits | src/modules/commandHandlers.js:145-149 | exactly the aliases whose name or URL matches, in key order |
| CommandHandlers.HistoryHits | src/modules/commandHandlers.js:153-157 | exactly the matching history entries, in order |
| CommandHandlers.Search | src/modules/commandHandlers.js:124-157 | holds exactly the matching category names, items, aliases and history entries, strictly ordered with data first, then aliases, then history |
| CommandHandlers.OrderedUnique | src/modules/commandHandlers.js:124-157 | two strictly ordered hit lists with the same members are equal |
| CommandHandlers.SearchIsUnique | src/modules/commandHandlers.js:124-157 | any list with the properties of a search result is the search result |
| CommandHandlers.HandleGrep | src/modules/commandHandlers.js:112-170 | handled iff the command starts with `grep`; an empty term gives the usage lines; otherwise a header whose count equals the number of result lines, or the single "No results found" line |
| CommandHandlers.HandleUtilityCommands | src/modules/commandHandlers.js:242-272 | clear, debug, stats, uptime, grep and quote in that order; not handled iff none applies; `clear` (`handleClearCommand`) is accepted exactly for `clear` and empties the transcript |
| Terminal.RouteOf | src/components/Terminal.jsx:144-330 | the exact condition for each branch of the inline dispatcher, in its order: help, clear, debug, logout, listing, addcat, removecat, category display, add, remove, unknown |
| Terminal.CategoryList | src/components/Terminal.jsx:185-197 | a header and then one line per category in key order, or "No categories found." |
| Terminal.RenderItems | src/components/Terminal.jsx:106-125 | one numbered entry per item, carrying the normalised link iff the item looks like a link, or the "No … stored yet." placeholder |
| Terminal.RenderItemsAppend | src/components/Terminal.jsx:106-125 | one more item adds one more numbered row at the end and leaves the earlier rows as they were |
| Terminal.RemoveByIdHere | src/components/Terminal.jsx:277-295 | an ID within `1..n` removes exactly that entry; otherwise nothing changes, with this dispatcher's messages |
| Terminal.RemovalTarget | src/components/Terminal.jsx:302-309 | the typed item, except in `links` where its normalised form is used when that is stored |
| Terminal.RemoveByNameHere | src/components/Terminal.jsx:298-322 | the category becomes the filter of its entries by literal inequality with the target, so exactly the equal entries go; no match or an absent category changes nothing |
| Terminal.RemoveByNameHereCutsOne | src/components/Terminal.jsx:298-322 | outside `links`, removing an item that occurs once cuts out that entry and keeps the others in order |
| Terminal.RemoveHere | src/components/Terminal.jsx:275-327 | the ID form first, then the name form, then the syntax message with nothing changed |
| Terminal.DataStep | src/components/Terminal.jsx:185-327 | the store branches of the dispatcher; `addcat`, `removecat` and `add` make the same changes with the same messages as the module handlers |
| Terminal.Gate | src/components/Terminal.jsx:131-141 | before login, exactly the secret word logs in and shows help with two lines; anything else appends the rejection line and changes nothing else |
| Terminal.Dispatch | src/components/Terminal.jsx:144-330 | every branch but `clear` and `logout` keeps the transcript and appends the echo then its lines; help reports from the flag before toggling; logout resets to the banner and keeps the store |
| Terminal.HandleCommand | src/components/Terminal.jsx:127-331 | the command is trimmed, then gated or dispatched, and the store stays well formed |
| Terminal.Record | src/components/Terminal.jsx:362-375 | the command is appended iff the session was already open, it is not the secret word in any letter case, and it differs from the last entry |
| Terminal.HandleSubmit | src/components/Terminal.jsx:356-383 | the text in the input box is read; blank input changes nothing; otherwise the trimmed input is recorded, navigation resets, the command runs and the input box empties |
| Terminal.HandleKeyDown | src/components/Terminal.jsx:333-354 | only when logged in; the index stays within `-1..n-1`, and the input shows the entry that many places before the end, or is emptied when moving down from the newest |
| Terminal.SubmitKeepsInv | src/components/Terminal.jsx:356-383 | a submission keeps the store well formed and the index in bounds |
| Terminal.RecordKeepsClean | src/components/Terminal.jsx:368-375 | recording keeps the history free of blank entries, of the secret word and of back-to-back repeats |
| Terminal.SubmitKeepsHistoryClean | src/components/Terminal.jsx:356-383 | every submission keeps the history clean in that sense |
| Terminal.SecretNeverRecorded | src/components/Terminal.jsx:362-366 | the secret word is never recorded, in any letter case |
| Terminal.LogoutKeepsData | src/components/Terminal.jsx:173-182 | logging out closes the session, hides help, and shows exactly the banner, but keeps the store |
| Terminal.UpThenDown | src/components/Terminal.jsx:333-354 | moving up and then down returns to the same index and shows the same input |
| Terminal.GateHoldsFirm | src/components/Terminal.jsx:131-141 | before login, every command other than the secret word leaves the store and the login state alone |
| Terminal.DisplayBeforeAdd | src/components/Terminal.jsx:239-246 | a category named `address` is shown by this dispatcher where the module handler would take it as an `add` |
| Terminal.RemoveByNameIsLiteralHere | src/components/Terminal.jsx:298-322 | outside `links`, `a.com` does not remove a stored `https://a.com`, although the module handler does |
| Terminal.LinksRemovalNormalizes | src/components/Terminal.jsx:304-309 | in `links`, `a.com` removes a stored `https://a.com` |
| Terminal.RemoveByIdAgrees | src/components/Terminal.jsx:277-295 | both dispatchers make the same change for `remove N from c` |

## Left out

- Integer-like object keys: JavaScript enumerates keys such as `"1"` before all others. The model keeps plain insertion order.
- Inherited object properties: a category or alias named like an `Object.prototype` member (such as `constructor`) is treated like any other absent name.
- Non-ASCII letters: `toLowerCase` is modelled on ASCII letters only.
- Persistence: the model's state stands for what `localStorage` holds. Its serialisation, and the `useEffect` hooks that write it, are left out.
- JSX rendering and the help panel: category entries are modelled as `Entry` lines, not React elements.
- Clock: `new Date()` becomes an elapsed-milliseconds parameter, and `toLocaleTimeString` becomes a start-time text parameter.
- Typing into the input box: `onChange` only sets the session's `input` field, which `handleSubmit` then reads; it is not modelled as an operation of its own.
- `window.open`: alias execution reports the URL it would open in the reply's `newTab` field.
- `debug` and `quote`: both need the browser, the network or randomness. The utility router reports them as `External`, and the inline `debug` branch appends an opaque `DebugDump` line.
- grep inputs: `grep` reads aliases and history from storage, so the model takes them as parameters. The history key it reads (`terminalHistory`) differs from the one the terminal writes (`terminalCommandHistory`), so in the running program that list is normally empty.
- The frequency counts and the command counter that `stats` reports are kept by the caller, so the model takes them as parameters.
- `parseInt` on very long digit strings: the model's IDs are exact, so it leaves out the precision loss of huge numbers.
- The in-place `data[category] = []` before an `add`: the model states the same observable result. The category is created, at the end of the key order, when the add succeeds.
- CommandHandlers.FormatUptime: for a negative elapsed time, only the signs and bounds of the components are stated, not their exact values.

=== FILE: alias_manager.dfy ===
/**
 Named links (`src/modules/aliasManager.js`): `alias "url" as name` binds a
 name to a target, `aliaslist` lists the bindings, `removealias name` drops
 one, and typing a bound name opens its target in a new tab. A name counts as
 bound only when its value is a non-empty string, which is how the source's
 truthiness test `aliases[name]` reads on a store of strings.
 */
module AliasManager {
  import opened Wrappers
  import opened Text
  import opened Dict
  import opened Regex
  import opened TerminalUtils
  import opened Output

  /** Alias name to target URL, in insertion order. */
  type Aliases = Dict<string>

  const AliasPattern := QuotedThenWord("alias", "as")

  const AliasUsage := "Invalid alias syntax. Use: alias \"url\" as aliasname"
  const AliasExistsHint := " already exists. Use removealias to remove it first."

  /** The command words the alias module adds to autocompletion. */
  const AliasCommands := ["alias", "aliaslist", "removealias"]

  /** What an alias handler returns: `false`, or `true` together with the new
      aliases, the lines appended after the echo, and the URL handed to
      `window.open`, if any. */
  datatype AliasReply =
    | NotHandled
    | Handled(aliases: Aliases, out: seq<Line>, newTab: Option<string>)

  /** `aliases[name]` is truthy. */
  predicate Bound(a: Aliases, name: string) {
    name in a.vals && a.vals[name] != ""
  }

  /** The target stored for a typed URL: kept as it is when it begins with
      the four letters `http`, otherwise prefixed with `https://`. Only the
      four letters are checked, so a host such as `httpbin.org` is stored
      without a protocol. */
  function AliasTarget(url: string): (r: string)
    ensures StartsWith(r, "http") && |r| >= |url|
    ensures r[|r| - |url|..] == url
    ensures r == url <==> StartsWith(url, "http")
    ensures !StartsWith(url, "http") ==> r == Https + url
  {
    if StartsWith(url, "http") then url
    else
      assert (Https + url)[..4] == "http";
      Https + url
  }

  /** Creating an alias from the captures of `alias "url" as name`, if the
      command matched. */
  function CreateAlias(command: string, m: Option<Captures>, a: Aliases): (r: AliasReply)
    requires Valid(a)
    ensures r.Handled? && Valid(r.aliases) && r.newTab.None? && |r.out| == 2 && r.out[0] == Echo(command)
    ensures m.None? ==>
              r.aliases == a && r.out[1] == Error(AliasUsage)
    ensures m.Some? && Bound(a, m.value.second) ==>
              r.aliases == a
              && r.out[1] == Plain("Alias " + Quoted(m.value.second) + AliasExistsHint)
    ensures m.Some? && !Bound(a, m.value.second) ==>
              var name := m.value.second;
              && r.aliases.vals == a.vals[name := AliasTarget(m.value.first)]
              && (name in a.vals ==> r.aliases.keys == a.keys)
              && (name !in a.vals ==> r.aliases.keys == a.keys + [name])
              && r.out[1] == Plain("Created alias " + Quoted(name) + " for " + AliasTarget(m.value.first))
  {
    if m.None? then
      Handled(a, [Echo(command), Error(AliasUsage)], None)
    else
      var name := m.value.second;
      if Bound(a, name) then
        Handled(a, [Echo(command), Plain("Alias " + Quoted(name) + AliasExistsHint)], None)
      else
        var target := AliasTarget(m.value.first);
        Handled(Put(a, name, target), [Echo(command), Plain("Created alias " + Quoted(name) + " for " + target)], None)
  }

  /** `handleAliasCreation`: only commands starting with `alias `. */
  function HandleAliasCreation(command: string, a: Aliases): (r: AliasReply)
    requires Valid(a)
    ensures r.NotHandled? <==> !StartsWith(command, "alias ")
    ensures r.Handled? ==> r == CreateAlias(command, Exec(AliasPattern, command), a)
  {
    if !StartsWith(command, "alias ") then NotHandled
    else CreateAlias(command, Exec(AliasPattern, command), a)
  }

  /** `${i}. ${alias} -> ${url}` */
  function AliasLine(i: nat, name: string, url: string): string {
    NatToString(i) + ". " + name + " -> " + url
  }

  function AliasLines(a: Aliases): (r: seq<Line>)
    requires Valid(a)
    ensures |r| == |a.keys|
    ensures forall i :: 0 <= i < |r| ==> r[i] == Plain(AliasLine(i + 1, a.keys[i], a.vals[a.keys[i]]))
  {
    seq(|a.keys|, i requires 0 <= i < |a.keys| => Plain(AliasLine(i + 1, a.keys[i], a.vals[a.keys[i]])))
  }

  /** `handleAliasList`: read-only; one numbered line per key, in key order. */
  function HandleAliasList(command: string, a: Aliases): (r: AliasReply)
    requires Valid(a)
    ensures r.NotHandled? <==> command != "aliaslist"
    ensures r.Handled? ==> r.aliases == a && r.newTab.None? && |r.out| >= 2 && r.out[0] == Echo(command)
    ensures r.Handled? && a.keys == [] ==> r.out == [Echo(command), Plain("No aliases found.")]
    ensures r.Handled? && a.keys != [] ==>
              && |r.out| == |a.keys| + 2
              && r.out[1] == Plain("Available aliases (" + NatToString(|a.keys|) + "):")
              && forall i :: 0 <= i < |a.keys| ==>
                   r.out[i + 2] == Plain(AliasLine(i + 1, a.keys[i], a.vals[a.keys[i]]))
  {
    if command != "aliaslist" then NotHandled
    else if a.keys == [] then Handled(a, [Echo(command), Plain("No aliases found.")], None)
    else
      var lines := AliasLines(a);
      var out := [Echo(command), Plain("Available aliases (" + NatToString(|a.keys|) + "):")] + lines;
      assert forall i :: 0 <= i < |lines| ==> out[i + 2] == lines[i];
      Handled(a, out, None)
  }

  /** The name `removealias` addresses: what follows the 12 characters of
      `removealias `, trimmed. */
  function RemovalName(command: string): (r: string)
    requires StartsWith(command, "removealias ")
    ensures r == Trim(command[12..]) && IsTrimmed(r)
  {
    var r := Trim(command[12..]);
    assert IsTrimmed(r);
    r
  }

  /** Removing the alias `name` named by a `removealias` command. */
  function RemoveAlias(command: string, name: string, a: Aliases): (r: AliasReply)
    requires Valid(a)
    ensures r.Handled? && Valid(r.aliases) && r.newTab.None? && |r.out| == 2 && r.out[0] == Echo(command)
    ensures name == "" ==> r.aliases == a && r.out[1] == Plain("Usage: removealias <aliasname>")
    ensures name != "" && Bound(a, name) ==>
              && r.aliases == Remove(a, name) && r.aliases.vals == a.vals - {name}
              && r.out[1] == Plain("Removed alias " + Quoted(name) + " (" + a.vals[name] + ")")
    ensures name != "" && !Bound(a, name) ==>
              r.aliases == a && r.out[1] == Plain("Alias " + Quoted(name) + " not found.")
  {
    if name == "" then Handled(a, [Echo(command), Plain("Usage: removealias <aliasname>")], None)
    else if Bound(a, name) then
      Handled(Remove(a, name), [Echo(command), Plain("Removed alias " + Quoted(name) + " (" + a.vals[name] + ")")], None)
    else
      Handled(a, [Echo(command), Plain("Alias " + Quoted(name) + " not found.")], None)
  }

  /** `handleAliasRemoval`: only a bound name is deleted. */
  function HandleAliasRemoval(command: string, a: Aliases): (r: AliasReply)
    requires Valid(a)
    ensures r.NotHandled? <==> !StartsWith(command, "removealias ")
    ensures r.Handled? ==> r == RemoveAlias(command, RemovalName(command), a)
  {
    if !StartsWith(command, "removealias ") then NotHandled
    else RemoveAlias(command, RemovalName(command), a)
  }

  /** `handleAliasExecution`: the whole command, untrimmed, is looked up. */
  function HandleAliasExecution(command: string, a: Aliases): (r: AliasReply)
    ensures r.NotHandled? <==> !Bound(a, command)
    ensures r.Handled? ==>
              && r.aliases == a && r.newTab == Some(a.vals[command])
              && r.out == [Echo(command), Plain("Opening " + a.vals[command] + " in new tab...")]
  {
    if Bound(a, command) then
      Handled(a, [Echo(command), Plain("Opening " + a.vals[command] + " in new tab...")], Some(a.vals[command]))
    else NotHandled
  }

  /** `handleAliasCommands`: creation, listing, removal and execution are
      tried in that order and the first that accepts the command wins. A
      target is opened only by execution, and execution never changes the
      aliases. */
  function HandleAliasCommands(command: string, a: Aliases): (r: AliasReply)
    requires Valid(a)
    ensures r.NotHandled? <==>
              && !StartsWith(command, "alias ") && command != "aliaslist"
              && !StartsWith(command, "removealias ") && !Bound(a, command)
    ensures r.Handled? ==> Valid(r.aliases) && |r.out| >= 2 && r.out[0] == Echo(command)
    ensures r.Handled? && r.newTab.Some? ==> r.aliases == a
    ensures r.Handled? && r.newTab.Some? <==>
              && !StartsWith(command, "alias ") && command != "aliaslist"
              && !StartsWith(command, "removealias ") && Bound(a, command)
    ensures r.Handled? && r.newTab.Some? ==> r.newTab.value == a.vals[command]
    ensures StartsWith(command, "alias ") ==> r == HandleAliasCreation(command, a)
    ensures command == "aliaslist" ==> r == HandleAliasList(command, a)
    ensures StartsWith(command, "removealias ") ==> r == HandleAliasRemoval(command, a)
    ensures !StartsWith(command, "alias ") && command != "aliaslist" && !StartsWith(command, "removealias ") ==>
              r == HandleAliasExecution(command, a)
  {
    assert command == "aliaslist" ==> !StartsWith(command, "alias ") by {
      if command == "aliaslist" { assert command[5] != ' '; }
    }
    assert StartsWith(command, "removealias ") ==> !StartsWith(command, "alias ") by {
      if StartsWith(command, "removealias ") { assert command[0] == "removealias "[0]; }
    }
    var created := HandleAliasCreation(command, a);
    if created.Handled? then created
    else
      var listed := HandleAliasList(command, a);
      if listed.Handled? then listed
      else
        var removed := HandleAliasRemoval(command, a);
        if removed.Handled? then removed
        else HandleAliasExecution(command, a)
  }

  /** `alias "url" as name`, spelled the way the help text shows it. */
  function AliasCommand(url: string, name: string): string {
    "alias" + " \"" + url + "\" " + "as" + " " + name
  }

  lemma AliasCommandShape(url: string, name: string)
    ensures StartsWith(AliasCommand(url, name), "alias ")
  {
    assert AliasCommand(url, name)[..6] == "alias ";
  }

  /** A word never carries the space the command prefixes end with, so typing
      it reaches the execution handler unless it is `aliaslist`. */
  lemma WordIsNoPrefixedCommand(name: string)
    requires IsWord(name)
    ensures !StartsWith(name, "alias ") && !StartsWith(name, "removealias ")
  {
    if |name| >= 6 { WordCharIsNoSpace(name[5]); assert name[..6][5] == name[5]; }
    if |name| >= 12 { WordCharIsNoSpace(name[11]); assert name[..12][11] == name[11]; }
  }

  /** Creating an alias for a fresh name and then typing the name opens the
      stored target. */
  lemma CreateThenOpen(url: string, name: string, a: Aliases)
    requires Valid(a) && !Bound(a, name)
    requires |url| > 0 && NoLineTerminator(url) && '"' !in url
    requires IsWord(name) && name != "aliaslist"
    ensures var created := HandleAliasCommands(AliasCommand(url, name), a);
            && created.Handled? && created.newTab.None?
            && Bound(created.aliases, name)
            && HandleAliasCommands(name, created.aliases).Handled?
            && HandleAliasCommands(name, created.aliases).newTab == Some(AliasTarget(url))
  {
    QuotedThenWordRoundTrip("alias", url, "as", name);
    AliasCommandShape(url, name);
    WordIsNoPrefixedCommand(name);
    var created := HandleAliasCreation(AliasCommand(url, name), a);
    assert created.aliases.vals[name] == AliasTarget(url);
  }

  /** Creating an alias for a name that was never used and removing it again
      restores the aliases, key order included. */
  lemma CreateThenRemove(url: string, name: string, a: Aliases)
    requires Valid(a) && name !in a.vals
    requires |url| > 0 && NoLineTerminator(url) && '"' !in url
    requires IsWord(name)
    ensures var created := HandleAliasCommands(AliasCommand(url, name), a);
            && created.Handled?
            && HandleAliasCommands("removealias " + name, created.aliases).aliases == a
  {
    QuotedThenWordRoundTrip("alias", url, "as", name);
    AliasCommandShape(url, name);
    var created := HandleAliasCreation(AliasCommand(url, name), a);
    assert HandleAliasCommands(AliasCommand(url, name), a) == created;
    var put := Put(a, name, AliasTarget(url));
    assert created.aliases == put;
    var command := "removealias " + name;
    assert StartsWith(command, "removealias ") by {
      assert command[..12] == "removealias ";
    }
    assert RemovalName(command) == name by {
      assert command[12..] == name;
      WordIsTrimmed(name);
      TrimOfTrimmed(name);
    }
    assert Bound(put, name);
    assert HandleAliasCommands(command, put) == HandleAliasRemoval(command, put);
    assert RemoveAlias(command, name, put).aliases == Remove(put, name);
    RemoveAfterPut(a, name, AliasTarget(url));
  }

  /** `aliaslist` always lists, even when it is itself bound as an alias. */
  lemma AliasListIsNeverOpened(a: Aliases)
    requires Valid(a)
    ensures HandleAliasCommands("aliaslist", a).Handled?
    ensures HandleAliasCommands("aliaslist", a).newTab.None?
    ensures HandleAliasCommands("aliaslist", a).aliases == a
  {
  }

  /** A typed URL that begins with `http` but not with a protocol is stored
      as it is, not in the normalized form the category store would use. */
  lemma AliasTargetMayLackProtocol(url: string)
    requires StartsWith(url, "http") && !HasProtocol(url)
    ensures AliasTarget(url) == url && !HasProtocol(AliasTarget(url))
    ensures AliasTarget(url) != NormalizeURL(url)
  {
    assert |NormalizeURL(url)| > |url|;
  }

  /** The alias target and URL normalisation agree exactly when the typed
      URL's protocol, if any, is spelled in lower case: a URL with no protocol
      gets `https://` from both unless it starts with `http`, and a URL with a
      protocol is kept by both unless that protocol is not lower case. */
  lemma AliasTargetVersusNormalize(url: string)
    ensures !HasProtocol(url) ==> (AliasTarget(url) == NormalizeURL(url) <==> !StartsWith(url, "http"))
    ensures HasProtocol(url) ==> (AliasTarget(url) == NormalizeURL(url) <==> StartsWith(url, "http"))
  {
    assert |Https + url| > |url|;
  }

  /** Example: `httpbin.org` is not given a protocol. */
  lemma HttpbinExample()
    ensures !HasProtocol("httpbin.org") && AliasTarget("httpbin.org") == "httpbin.org"
  {
    var s := "httpbin.org";
    assert s[..4] == "http";
    assert |Lower(s)| == 11;
    assert Lower(s)[4] == 'b';
    assert Lower(s)[..7] != "http://" by { assert Lower(s)[..7][4] == 'b'; }
    assert Lower(s)[..8] != "https://" by { assert Lower(s)[..8][4] == 'b'; }
  }

  /** After `alias "url" as name` for a name never used, `aliaslist` shows
      the old lines followed by one line for the new alias. */
  lemma ListingAfterCreate(url: string, name: string, a: Aliases)
    requires Valid(a) && name !in a.vals
    requires |url| > 0 && NoLineTerminator(url) && '"' !in url
    requires IsWord(name)
    ensures var created := HandleAliasCommands(AliasCommand(url, name), a);
            && created.Handled?
            && AliasLines(created.aliases) == AliasLines(a) + [Plain(AliasLine(|a.keys| + 1, name, AliasTarget(url)))]
  {
    QuotedThenWordRoundTrip("alias", url, "as", name);
    AliasCommandShape(url, name);
    var created := HandleAliasCreation(AliasCommand(url, name), a);
    assert HandleAliasCommands(AliasCommand(url, name), a) == created;
    assert created.aliases == Put(a, name, AliasTarget(url));
    LinesAfterPut(a, name, AliasTarget(url));
  }

  /** After `removealias name` for a bound word-named alias, the lines before
      it are unchanged and every later alias moves up one place. */
  lemma ListingAfterRemove(name: string, a: Aliases)
    requires Valid(a) && IsWord(name) && Bound(a, name)
    ensures var removed := HandleAliasCommands("removealias " + name, a);
            var i := IndexOf(a.keys, name);
            && removed.Handled?
            && var after := AliasLines(removed.aliases);
            && |after| == |a.keys| - 1
            && after[..i] == AliasLines(a)[..i]
            && forall j :: i <= j < |after| ==>
                 after[j] == Plain(AliasLine(j + 1, a.keys[j + 1], a.vals[a.keys[j + 1]]))
  {
    var command := "removealias " + name;
    assert StartsWith(command, "removealias ") by {
      assert command[..12] == "removealias ";
    }
    assert RemovalName(command) == name by {
      assert command[12..] == name;
      WordIsTrimmed(name);
      TrimOfTrimmed(name);
    }
    assert HandleAliasCommands(command, a) == HandleAliasRemoval(command, a);
    assert HandleAliasCommands(command, a).aliases == Remove(a, name);
    LinesAfterRemove(a, name);
  }

  /** A new alias adds one line at the end of the listing. */
  lemma LinesAfterPut(a: Aliases, name: string, url: string)
    requires Valid(a) && name !in a.vals
    ensures AliasLines(Put(a, name, url)) == AliasLines(a) + [Plain(AliasLine(|a.keys| + 1, name, url))]
  {
    var put := Put(a, name, url);
    var before := AliasLines(a);
    var after := AliasLines(put);
    var n := |before|;
    forall j | 0 <= j < n
      ensures after[..n][j] == before[j]
    {
      LineBeforeAdded(a, name, url, j);
    }
    assert after[..n] == before;
    assert put.keys[n] == name;
    EndsWith(after, before, Plain(AliasLine(n + 1, name, url)));
  }

  /** A line of the listing keeps its place when a new alias is added. */
  lemma LineBeforeAdded(a: Aliases, name: string, url: string, j: nat)
    requires Valid(a) && name !in a.vals && j < |a.keys|
    ensures AliasLines(Put(a, name, url))[j] == AliasLines(a)[j]
  {
    assert a.keys[j] in a.vals;
    assert Put(a, name, url).keys[j] == a.keys[j];
  }

  /** A list whose leading part is `before` and whose one further entry is
      `last` is `before + [last]`. */
  lemma EndsWith(after: seq<Line>, before: seq<Line>, last: Line)
    requires |after| == |before| + 1 && after[..|before|] == before && after[|before|] == last
    ensures after == before + [last]
  {
    assert after == after[..|before|] + [after[|before|]];
  }

  /** Removing an alias drops its line; the later lines move up one place. */
  lemma LinesAfterRemove(a: Aliases, name: string)
    requires Valid(a) && name in a.vals
    ensures var after := AliasLines(Remove(a, name));
            var i := IndexOf(a.keys, name);
            && |after| == |a.keys| - 1
            && after[..i] == AliasLines(a)[..i]
            && forall j :: i <= j < |after| ==>
                 after[j] == Plain(AliasLine(j + 1, a.keys[j + 1], a.vals[a.keys[j + 1]]))
  {
    PrefixAfterRemove(a, name);
    forall j | IndexOf(a.keys, name) <= j < |a.keys| - 1
      ensures AliasLines(Remove(a, name))[j] == Plain(AliasLine(j + 1, a.keys[j + 1], a.vals[a.keys[j + 1]]))
    {
      LineAfterRemoved(a, name, j);
    }
  }

  /** The lines ahead of the removed alias are unchanged. */
  lemma PrefixAfterRemove(a: Aliases, name: string)
    requires Valid(a) && name in a.vals
    ensures var i := IndexOf(a.keys, name);
            && |AliasLines(Remove(a, name))| == |a.keys| - 1
            && AliasLines(Remove(a, name))[..i] == AliasLines(a)[..i]
  {
    var i := IndexOf(a.keys, name);
    var after := AliasLines(Remove(a, name));
    var before := AliasLines(a);
    forall j | 0 <= j < i
      ensures after[..i][j] == before[..i][j]
    {
      LineBeforeRemoved(a, name, j);
    }
  }

  /** A line ahead of the removed alias keeps its place. */
  lemma LineBeforeRemoved(a: Aliases, name: string, j: nat)
    requires Valid(a) && name in a.vals && j < IndexOf(a.keys, name)
    ensures AliasLines(Remove(a, name))[j] == AliasLines(a)[j]
  {
    assert Remove(a, name).keys[j] == a.keys[j];
  }

  /** A line behind the removed alias moves up one place. */
  lemma LineAfterRemoved(a: Aliases, name: string, j: nat)
    requires Valid(a) && name in a.vals && IndexOf(a.keys, name) <= j < |a.keys| - 1
    ensures AliasLines(Remove(a, name))[j] == Plain(AliasLine(j + 1, a.keys[j + 1], a.vals[a.keys[j + 1]]))
  {
    assert Remove(a, name).keys[j] == a.keys[j + 1];
    assert a.keys[j + 1] != name;
  }
}

=== FILE: command_handlers.dfy ===
/**
 Analytics and utility commands (`src/modules/commandHandlers.js`): session
 uptime, usage statistics, a case-insensitive search over everything stored,
 and `clear`. The clock is not read: the time elapsed since the session began
 is a parameter in milliseconds, and the start time is passed already
 formatted. `debug` and `quote` are recognised but not modelled; the router
 names them as external.
 */
module CommandHandlers {
  import opened Wrappers
  import opened Text
  import opened Dict
  import opened Output
  import opened UsageSort

  const StatsHeader := "=== SESSION STATISTICS ==="
  const NoCommandsYet := "  No commands executed yet"
  const GrepUsage := "Usage: grep <search_term>"
  const GrepHint := "Search through all localStorage data, categories, and aliases"

  /** JavaScript's `%`: the remainder takes the sign of the dividend. */
  function JsRem(a: int, b: int): (r: int)
    requires b > 0
    ensures a >= 0 ==> 0 <= r < b && r == a % b
    ensures a < 0 ==> -b < r <= 0 && r == -((-a) % b)
  {
    if a >= 0 then a % b else -((-a) % b)
  }

  datatype Uptime = Uptime(hours: int, minutes: int, seconds: int, totalSeconds: int)

  /** `formatUptime`: whole seconds elapsed (rounded down) split into hours,
      minutes and seconds with `Math.floor` and `%`. For a non-negative
      elapsed time the parts recompose the total and minutes and seconds are
      below 60; a negative one (a clock set back) gives non-positive minutes
      and seconds. */
  function FormatUptime(elapsedMs: int): (u: Uptime)
    ensures u.totalSeconds * 1000 <= elapsedMs < (u.totalSeconds + 1) * 1000
    ensures elapsedMs >= 0 ==>
              && u.hours >= 0 && 0 <= u.minutes < 60 && 0 <= u.seconds < 60
              && u.hours * 3600 + u.minutes * 60 + u.seconds == u.totalSeconds
    ensures elapsedMs < 0 ==> u.hours < 0 && -60 <= u.minutes <= 0 && -60 < u.seconds <= 0
  {
    var uptime := elapsedMs / 1000;
    var r := JsRem(uptime, 3600);
    if uptime >= 0 then
      SecondsDecompose(uptime);
      Uptime(uptime / 3600, r / 60, JsRem(uptime, 60), uptime)
    else
      Uptime(uptime / 3600, r / 60, JsRem(uptime, 60), uptime)
  }

  lemma SecondsDecompose(t: int)
    requires t >= 0
    ensures (t / 3600) * 3600 + (JsRem(t, 3600) / 60) * 60 + JsRem(t, 60) == t
  {
    var q := t / 3600;
    var r := JsRem(t, 3600);
    assert t == q * 3600 + r;
    var m := r / 60;
    var s := r % 60;
    assert r == m * 60 + s;
    assert t == (q * 60 + m) * 60 + s;
    RemOfMultiplePlus(t, q * 60 + m, s);
  }

  /** The remainder by 60 of `a * 60 + s`, for `s` below 60, is `s`. */
  lemma RemOfMultiplePlus(t: int, a: int, s: int)
    requires 0 <= s < 60 && t == a * 60 + s
    ensures t % 60 == s
  {
  }

  function UptimeText(u: Uptime): string {
    IntToString(u.hours) + "h " + IntToString(u.minutes) + "m " + IntToString(u.seconds) + "s"
  }

  /** `${cmd}: ${count} times` */
  function UsageLine(u: Usage): Line {
    Plain(u.command + ": " + IntToString(u.count) + " times")
  }

  /** `handleStatsCommand`: handled only for exactly `stats`; reports the
      command count as given and the (at most five) most used commands, or a
      placeholder when nothing has been counted. */
  function HandleStats(command: string, elapsedMs: int, commandCount: int, freq: Dict<int>): (r: Option<seq<Line>>)
    requires Valid(freq)
    ensures r.Some? <==> command == "stats"
    ensures r.Some? ==>
              var top := TopFive(Entries(freq));
              && |r.value| >= 6
              && r.value[..5] == [Echo(command), Plain(StatsHeader),
                                  Plain("Uptime: " + UptimeText(FormatUptime(elapsedMs))),
                                  Plain("Commands executed: " + IntToString(commandCount)),
                                  Plain("Most used commands:")]
              && (freq.keys == [] ==> r.value[5..] == [Plain(NoCommandsYet)])
              && (freq.keys != [] ==>
                    && |r.value| == 5 + |top| <= 10
                    && forall i :: 0 <= i < |top| ==> r.value[5 + i] == UsageLine(top[i]))
  {
    if command != "stats" then None
    else
      var top := TopFive(Entries(freq));
      var most := if |top| > 0 then seq(|top|, i requires 0 <= i < |top| => UsageLine(top[i]))
                  else [Plain(NoCommandsYet)];
      var head := [Echo(command), Plain(StatsHeader),
                   Plain("Uptime: " + UptimeText(FormatUptime(elapsedMs))),
                   Plain("Commands executed: " + IntToString(commandCount)),
                   Plain("Most used commands:")];
      assert (head + most)[..5] == head;
      assert (head + most)[5..] == most;
      Some(head + most)
  }

  /** `handleUptimeCommand`: handled only for exactly `uptime`. */
  function HandleUptime(command: string, elapsedMs: int, started: string): (r: Option<seq<Line>>)
    ensures r.Some? <==> command == "uptime"
    ensures r.Some? ==>
              r.value == [Echo(command), Plain("Session uptime: " + UptimeText(FormatUptime(elapsedMs))),
                          Plain("Started: " + started)]
  {
    if command != "uptime" then None
    else Some([Echo(command), Plain("Session uptime: " + UptimeText(FormatUptime(elapsedMs))),
               Plain("Started: " + started)])
  }

  // ---------------------------------------------------------------------
  // grep

  /** One search result. Every hit carries the position it was found at: the
      category's or alias's place in key order, the item's index in its
      category, or the entry's index in the command history. */
  datatype Hit =
    | CategoryHit(pos: nat, category: string)
    | ItemHit(pos: nat, category: string, index: nat, item: string)
    | AliasHit(pos: nat, name: string, url: string)
    | HistoryHit(index: nat, entry: string)

  /** The line `grep` prints for a hit. */
  function Render(h: Hit): Line {
    match h
    case CategoryHit(_, c) => Plain("Category: " + c)
    case ItemHit(_, c, i, x) => Plain(c + "[" + NatToString(i + 1) + "]: " + x)
    case AliasHit(_, n, u) => Plain("Alias: " + n + " -> " + u)
    case HistoryHit(i, x) => Plain("History[" + NatToString(i + 1) + "]: " + x)
  }

  /** Where a hit belongs in the output: data before aliases before history;
      within the data, by category position, the name before the items and
      the items by index. */
  datatype Rank = Rank(section: nat, major: nat, minor: nat)

  function RankOf(h: Hit): Rank {
    match h
    case CategoryHit(k, _) => Rank(0, k, 0)
    case ItemHit(k, _, i, _) => Rank(0, k, i + 1)
    case AliasHit(k, _, _) => Rank(1, k, 0)
    case HistoryHit(i, _) => Rank(2, i, 0)
  }

  predicate Before(a: Rank, b: Rank) {
    || a.section < b.section
    || (a.section == b.section && a.major < b.major)
    || (a.section == b.section && a.major == b.major && a.minor < b.minor)
  }

  /** Strictly increasing rank, hence also no hit twice. */
  ghost predicate Ordered(r: seq<Hit>) {
    forall i, j :: 0 <= i < j < |r| ==> Before(RankOf(r[i]), RankOf(r[j]))
  }

  lemma OrderedConcat(a: seq<Hit>, b: seq<Hit>)
    requires Ordered(a) && Ordered(b)
    requires forall x, y :: x in a && y in b ==> Before(RankOf(x), RankOf(y))
    ensures Ordered(a + b)
  {
    forall i, j | 0 <= i < j < |a + b|
      ensures Before(RankOf((a + b)[i]), RankOf((a + b)[j]))
    {
      if j < |a| {
        assert (a + b)[i] == a[i] && (a + b)[j] == a[j];
      } else if i < |a| {
        assert (a + b)[i] == a[i] && a[i] in a;
        assert (a + b)[j] == b[j - |a|] && b[j - |a|] in b;
      } else {
        assert (a + b)[i] == b[i - |a|] && (a + b)[j] == b[j - |a|];
      }
    }
  }

  /** `x.toLowerCase().includes(t)`, for an already lower-cased `t`. */
  predicate Matches(x: string, t: string) {
    Contains(Lower(x), t)
  }

  function ItemHits(k: nat, c: string, items: seq<string>, t: string, i: nat): (r: seq<Hit>)
    requires i <= |items|
    decreases |items| - i
    ensures forall h :: h in r ==> h.ItemHit? && h.pos == k && h.category == c && i <= h.index < |items|
    ensures forall j: nat, x :: ItemHit(k, c, j, x) in r <==> i <= j < |items| && items[j] == x && Matches(x, t)
    ensures Ordered(r)
  {
    if i == |items| then []
    else
      var rest := ItemHits(k, c, items, t, i + 1);
      var here := if Matches(items[i], t) then [ItemHit(k, c, i, items[i])] else [];
      OrderedConcat(here, rest);
      here + rest
  }

  /** The hits of one category: its name, then its items. */
  function CategoryHits(k: nat, c: string, items: seq<string>, t: string): (r: seq<Hit>)
    ensures forall h :: h in r ==> (h.CategoryHit? || h.ItemHit?) && h.pos == k && h.category == c
    ensures CategoryHit(k, c) in r <==> Matches(c, t)
    ensures forall j: nat, x :: ItemHit(k, c, j, x) in r <==> j < |items| && items[j] == x && Matches(x, t)
    ensures Ordered(r)
  {
    var items' := ItemHits(k, c, items, t, 0);
    var here := if Matches(c, t) then [CategoryHit(k, c)] else [];
    OrderedConcat(here, items');
    here + items'
  }

  /** The hits of the categories from position `k` on, in key order. */
  function DataHits(data: Dict<seq<string>>, t: string, k: nat): (r: seq<Hit>)
    requires Valid(data) && k <= |data.keys|
    decreases |data.keys| - k
    ensures forall h :: h in r ==> (h.CategoryHit? || h.ItemHit?) && k <= h.pos < |data.keys|
                                   && h.category == data.keys[h.pos]
    ensures forall p: nat, c :: CategoryHit(p, c) in r <==> k <= p < |data.keys| && data.keys[p] == c && Matches(c, t)
    ensures forall p: nat, c, j: nat, x :: ItemHit(p, c, j, x) in r <==>
              && k <= p < |data.keys| && data.keys[p] == c
              && j < |data.vals[c]| && data.vals[c][j] == x && Matches(x, t)
    ensures Ordered(r)
  {
    if k == |data.keys| then []
    else
      var c := data.keys[k];
      var here := CategoryHits(k, c, data.vals[c], t);
      var rest := DataHits(data, t, k + 1);
      OrderedConcat(here, rest);
      here + rest
  }

  /** `Object.entries(aliases)`, in key order. */
  function AliasEntries(aliases: Dict<string>): (r: seq<(string, string)>)
    requires Valid(aliases)
    ensures |r| == |aliases.keys|
    ensures forall p :: 0 <= p < |r| ==> r[p] == (aliases.keys[p], aliases.vals[aliases.keys[p]])
  {
    seq(|aliases.keys|, p requires 0 <= p < |aliases.keys| => (aliases.keys[p], aliases.vals[aliases.keys[p]]))
  }

  /** The alias entries from position `k` on whose name or target matches. */
  function AliasHits(entries: seq<(string, string)>, t: string, k: nat): (r: seq<Hit>)
    requires k <= |entries|
    decreases |entries| - k
    ensures forall h :: h in r ==> h.AliasHit? && k <= h.pos < |entries|
    ensures forall p: nat, n, u :: AliasHit(p, n, u) in r <==>
              k <= p < |entries| && entries[p] == (n, u) && (Matches(n, t) || Matches(u, t))
    ensures Ordered(r)
  {
    if k == |entries| then []
    else
      var n := entries[k].0;
      var u := entries[k].1;
      var here := if Matches(n, t) || Matches(u, t) then [AliasHit(k, n, u)] else [];
      var rest := AliasHits(entries, t, k + 1);
      AliasHitsStep(entries, t, k, here, rest);
      OrderedConcat(here, rest);
      here + rest
  }

  /** The hits from `k` on are the hit at `k`, if any, and those after it. */
  lemma AliasHitsStep(entries: seq<(string, string)>, t: string, k: nat, here: seq<Hit>, rest: seq<Hit>)
    requires k < |entries|
    requires here == if Matches(entries[k].0, t) || Matches(entries[k].1, t)
                     then [AliasHit(k, entries[k].0, entries[k].1)] else []
    requires forall h :: h in rest ==> h.AliasHit? && k + 1 <= h.pos < |entries|
    requires forall p: nat, n, u :: AliasHit(p, n, u) in rest <==>
               k + 1 <= p < |entries| && entries[p] == (n, u) && (Matches(n, t) || Matches(u, t))
    ensures forall h :: h in here + rest ==> h.AliasHit? && k <= h.pos < |entries|
    ensures forall p: nat, n, u :: AliasHit(p, n, u) in here + rest <==>
              k <= p < |entries| && entries[p] == (n, u) && (Matches(n, t) || Matches(u, t))
  {
  }

  /** The history entries from index `i` on that match. */
  function HistoryHits(history: seq<string>, t: string, i: nat): (r: seq<Hit>)
    requires i <= |history|
    decreases |history| - i
    ensures forall h :: h in r ==> h.HistoryHit? && i <= h.index < |history|
    ensures forall j: nat, x :: HistoryHit(j, x) in r <==> i <= j < |history| && history[j] == x && Matches(x, t)
    ensures Ordered(r)
  {
    if i == |history| then []
    else
      var here := if Matches(history[i], t) then [HistoryHit(i, history[i])] else [];
      var rest := HistoryHits(history, t, i + 1);
      OrderedConcat(here, rest);
      here + rest
  }

  /** What a search for the lower-cased term `t` must return: exactly the
      matching category names, items, aliases and history entries, in rank
      order. */
  ghost predicate IsSearchResult(r: seq<Hit>, data: Dict<seq<string>>, aliases: Dict<string>,
                                 history: seq<string>, t: string)
    requires Valid(data) && Valid(aliases)
  {
    && Ordered(r)
    && (forall h :: h in r ==> !h.HistoryHit? ==> h.pos < (if h.AliasHit? then |aliases.keys| else |data.keys|))
    && (forall p: nat, c :: CategoryHit(p, c) in r <==> p < |data.keys| && data.keys[p] == c && Matches(c, t))
    && (forall p: nat, c, j: nat, x :: ItemHit(p, c, j, x) in r <==>
          && p < |data.keys| && data.keys[p] == c
          && j < |data.vals[c]| && data.vals[c][j] == x && Matches(x, t))
    && (forall p: nat, n, u :: AliasHit(p, n, u) in r <==>
          && p < |aliases.keys| && aliases.keys[p] == n && aliases.vals[n] == u
          && (Matches(n, t) || Matches(u, t)))
    && (forall j: nat, x :: HistoryHit(j, x) in r <==> j < |history| && history[j] == x && Matches(x, t))
  }

  /** The search `handleGrepCommand` performs. */
  function Search(data: Dict<seq<string>>, aliases: Dict<string>, history: seq<string>, t: string): (r: seq<Hit>)
    requires Valid(data) && Valid(aliases)
    ensures IsSearchResult(r, data, aliases, history, t)
  {
    var d := DataHits(data, t, 0);
    var a := AliasHits(AliasEntries(aliases), t, 0);
    var h := HistoryHits(history, t, 0);
    OrderedConcat(a, h);
    OrderedConcat(d, a + h);
    d + (a + h)
  }

  /** In a rank-ordered sequence every later hit ranks strictly after the
      first, so the first occurs only once. */
  lemma OrderedTail(a: seq<Hit>, h: Hit)
    requires Ordered(a) && a != []
    ensures h in a[1..] <==> h in a && h != a[0]
  {
    if h in a[1..] {
      var m :| 0 <= m < |a[1..]| && a[1..][m] == h;
      assert a[m + 1] == h && Before(RankOf(a[0]), RankOf(h));
    }
    if h in a && h != a[0] {
      var n :| 0 <= n < |a| && a[n] == h;
      assert a[1..][n - 1] == h;
    }
  }

  /** Two rank-ordered sequences with the same hits start alike. */
  lemma OrderedSameFirst(a: seq<Hit>, b: seq<Hit>)
    requires Ordered(a) && Ordered(b) && a != [] && b != []
    requires forall h :: h in a <==> h in b
    ensures a[0] == b[0]
  {
    assert a[0] in a && b[0] in b;
    var i :| 0 <= i < |b| && b[i] == a[0];
    var j :| 0 <= j < |a| && a[j] == b[0];
  }

  /** Two rank-ordered sequences with the same hits are the same sequence. */
  lemma {:induction false} OrderedUnique(a: seq<Hit>, b: seq<Hit>)
    requires Ordered(a) && Ordered(b)
    requires forall h :: h in a <==> h in b
    ensures a == b
    decreases |a|
  {
    assert a != [] ==> a[0] in a;
    assert b != [] ==> b[0] in b;
    if a != [] && b != [] {
      OrderedSameFirst(a, b);
      forall h ensures h in a[1..] <==> h in b[1..] {
        OrderedTail(a, h);
        OrderedTail(b, h);
      }
      OrderedUnique(a[1..], b[1..]);
      assert a == [a[0]] + a[1..] && b == [b[0]] + b[1..];
    }
  }

  /** The search result is the only sequence meeting the description: the
      matching entries, each once, in rank order. */
  lemma SearchIsUnique(r: seq<Hit>, data: Dict<seq<string>>, aliases: Dict<string>, history: seq<string>, t: string)
    requires Valid(data) && Valid(aliases)
    requires IsSearchResult(r, data, aliases, history, t)
    ensures r == Search(data, aliases, history, t)
  {
    var s := Search(data, aliases, history, t);
    forall h ensures h in r <==> h in s {
      match h
      case CategoryHit(p, c) =>
      case ItemHit(p, c, j, x) =>
      case AliasHit(p, n, u) =>
      case HistoryHit(j, x) =>
    }
    OrderedUnique(r, s);
  }

  /** `handleGrepCommand`: any command starting with `grep`. The term is the
      text after those four letters, trimmed; the search ignores case. */
  function HandleGrep(command: string, data: Dict<seq<string>>, aliases: Dict<string>, history: seq<string>)
    : (r: Option<seq<Line>>)
    requires Valid(data) && Valid(aliases)
    ensures r.Some? <==> StartsWith(command, "grep")
    ensures r.Some? ==> |r.value| >= 2 && r.value[0] == Echo(command)
    ensures r.Some? && Trim(command[4..]) == "" ==>
              r.value == [Echo(command), Plain(GrepUsage),
                          Plain(GrepHint)]
    ensures r.Some? && Trim(command[4..]) != "" ==>
              var term := Trim(command[4..]);
              var hits := Search(data, aliases, history, Lower(term));
              && (hits == [] ==> r.value == [Echo(command), Plain("No results found for " + Quoted(term))])
              && (hits != [] ==>
                    && r.value[1] == Plain("Found " + NatToString(|hits|) + " result(s) for " + Quoted(term) + ":")
                    && |r.value| == |hits| + 2
                    && forall i :: 0 <= i < |hits| ==> r.value[i + 2] == Render(hits[i]))
  {
    if !StartsWith(command, "grep") then None
    else
      var term := Trim(command[4..]);
      if term == "" then
        Some([Echo(command), Plain(GrepUsage),
              Plain(GrepHint)])
      else
        Some(GrepReport(command, term, Search(data, aliases, history, Lower(term))))
  }

  /** The lines `grep` shows for a term and its hits. */
  function GrepReport(command: string, term: string, hits: seq<Hit>): (r: seq<Line>)
    ensures |r| >= 2 && r[0] == Echo(command)
    ensures hits == [] ==> r == [Echo(command), Plain("No results found for " + Quoted(term))]
    ensures hits != [] ==>
              && r[1] == Plain("Found " + NatToString(|hits|) + " result(s) for " + Quoted(term) + ":")
              && |r| == |hits| + 2
              && forall i :: 0 <= i < |hits| ==> r[i + 2] == Render(hits[i])
  {
    if hits == [] then [Echo(command), Plain("No results found for " + Quoted(term))]
    else
      [Echo(command), Plain("Found " + NatToString(|hits|) + " result(s) for " + Quoted(term) + ":")]
      + seq(|hits|, i requires 0 <= i < |hits| => Render(hits[i]))
  }

  // ---------------------------------------------------------------------
  // routing

  /** What `handleUtilityCommands` leaves behind: nothing handled, the
      transcript emptied, lines appended, or one of the commands this model
      does not cover. */
  datatype UtilityReply = NotHandled | Cleared | Append(lines: seq<Line>) | External(name: string)

  /** The inputs the utility commands read besides the command: elapsed time,
      the formatted start time, the counters kept by the caller, the store,
      and the aliases and history `grep` reads from storage. */
  datatype Context = Context(
    elapsedMs: int, started: string, commandCount: int, freq: Dict<int>,
    data: Dict<seq<string>>, aliases: Dict<string>, history: seq<string>)

  ghost predicate ValidContext(ctx: Context) {
    Valid(ctx.freq) && Valid(ctx.data) && Valid(ctx.aliases)
  }

  /** `getUtilityCommands` */
  const UtilityCommands := ["help", "clear", "debug", "stats", "uptime", "grep", "quote"]

  /** `handleUtilityCommands`: clear, debug, stats, uptime, grep and quote are
      tried in that order; the command is handled iff one accepts it. */
  function HandleUtilityCommands(command: string, ctx: Context): (r: UtilityReply)
    requires ValidContext(ctx)
    ensures r.NotHandled? <==>
              command !in {"clear", "debug", "stats", "uptime", "quote"} && !StartsWith(command, "grep")
    ensures r.Cleared? <==> command == "clear"
    ensures r.External? <==> command == "debug" || command == "quote"
    ensures r.External? ==> r.name == command
    ensures command == "stats" ==>
              r == Append(HandleStats(command, ctx.elapsedMs, ctx.commandCount, ctx.freq).value)
    ensures command == "uptime" ==> r == Append(HandleUptime(command, ctx.elapsedMs, ctx.started).value)
    ensures StartsWith(command, "grep") ==>
              r == Append(HandleGrep(command, ctx.data, ctx.aliases, ctx.history).value)
  {
    assert command in {"clear", "debug", "stats", "uptime", "quote"} ==> command[0] != 'g';
    assert StartsWith(command, "grep") ==> command[0] == 'g';
    // `handleClearCommand` accepts exactly `clear` and empties the transcript
    if command == "clear" then Cleared
    else if command == "debug" then External(command)
    else
      var stats := HandleStats(command, ctx.elapsedMs, ctx.commandCount, ctx.freq);
      if stats.Some? then Append(stats.value)
      else
        var uptime := HandleUptime(command, ctx.elapsedMs, ctx.started);
        if uptime.Some? then Append(uptime.value)
        else
          var grep := HandleGrep(command, ctx.data, ctx.aliases, ctx.history);
          if grep.Some? then Append(grep.value)
          else if command == "quote" then External(command)
          else NotHandled
  }
}

=== FILE: data_manager.dfy ===
/**
 The category store and its commands (`src/modules/dataManager.js`):
 listing categories, creating and deleting them, adding items to them and
 removing items by 1-based ID or by value, and showing a category by typing
 its name. Each handler is a pure step from the store and the command to the
 new store and the lines it appends after the echo of the command.
 */
module DataManager {
  import opened Wrappers
  import opened Text
  import opened Dict
  import opened Regex
  import opened TerminalUtils
  import opened Output

  /** Category name to its items, in insertion order. */
  type Store = Dict<seq<string>>

  const AddCatPattern := QuotedOrWord("addcat")
  const RemoveCatPattern := QuotedOrWord("removecat")
  const AddPattern := QuotedThenWord("add", "in")
  const RemoveIdPattern := DigitsThenWord("remove", "from")
  const RemoveNamePattern := QuotedThenWord("remove", "from")

  const RemoveUsage := "Invalid remove syntax. Use: remove \"item\" from category OR remove <number> from category"

  const NoCategoriesHint := "No categories found. Use 'add \"item\" in category' to create one."
  const AddCatUsage := "Invalid syntax. Use: addcat \"category\" or addcat category"
  const RemoveCatUsage := "Invalid syntax. Use: removecat \"category\" or removecat category"
  const AddUsage := "Invalid add syntax. Use: add \"item\" in category"

  /** What a handler returns: `false`, or `true` together with the new
      store and the lines appended to the transcript. */
  datatype Reply = NotHandled | Handled(data: Store, out: seq<Line>)

  /** The items of a category, or none when it is absent. */
  function Items(data: Store, c: string): seq<string> {
    if c in data.vals then data.vals[c] else []
  }

  /** `${i}. ${key} (${count} items)` */
  function CategoryLine(i: nat, key: string, count: nat): string {
    NatToString(i) + ". " + key + " (" + NatToString(count) + " items)"
  }

  /** One line per category, numbered from 1 in key order, with its item count. */
  function CategoryLines(data: Store): (r: seq<string>)
    ensures |r| == |data.keys|
    ensures forall i :: 0 <= i < |r| ==>
              r[i] == CategoryLine(i + 1, data.keys[i], |Items(data, data.keys[i])|)
  {
    seq(|data.keys|, i requires 0 <= i < |data.keys| =>
      CategoryLine(i + 1, data.keys[i], |Items(data, data.keys[i])|))
  }

  /** `categories` / `cats`: a read-only listing. */
  function ListCategories(command: string, data: Store): (r: Reply)
    ensures r.Handled? && r.data == data
    ensures data.keys == [] ==>
              r.out == [Echo(command), Plain(NoCategoriesHint)]
    ensures data.keys != [] ==>
              r.out == [Echo(command), Plain("Available categories:\n" + Join(CategoryLines(data), "\n"))]
  {
    if data.keys == [] then
      Handled(data, [Echo(command), Plain(NoCategoriesHint)])
    else
      Handled(data, [Echo(command), Plain("Available categories:\n" + Join(CategoryLines(data), "\n"))])
  }

  /** The name `addcat`/`removecat` address: the quoted form if present,
      else the bare word. */
  function CategoryName(p: Pattern, command: string): (r: Option<string>)
    ensures r.Some? ==> |r.value| > 0
  {
    var m := Exec(p, command);
    if m.Some? then Some(m.value.first) else None
  }

  /** `addcat "name"` / `addcat name`. */
  function CreateCategory(command: string, data: Store): (r: Reply)
    requires Valid(data)
    ensures r.Handled? && Valid(r.data) && |r.out| == 2 && r.out[0] == Echo(command)
    ensures CategoryName(AddCatPattern, command).None? ==>
              r.data == data
              && r.out[1] == Plain(AddCatUsage)
    ensures CategoryName(AddCatPattern, command).Some? ==>
              var name := CategoryName(AddCatPattern, command).value;
              && (name in data.vals ==>
                    r.data == data && r.out[1] == Plain("Category " + Quoted(name) + " already exists."))
              && (name !in data.vals ==>
                    && r.data.vals == data.vals[name := []] && r.data.keys == data.keys + [name]
                    && r.out[1] == Plain("Created category " + Quoted(name) + "."))
  {
    var name := CategoryName(AddCatPattern, command);
    if name.None? then
      Handled(data, [Echo(command), Plain(AddCatUsage)])
    else if name.value in data.vals then
      Handled(data, [Echo(command), Plain("Category " + Quoted(name.value) + " already exists.")])
    else
      Handled(Put(data, name.value, []), [Echo(command), Plain("Created category " + Quoted(name.value) + ".")])
  }

  /** `removecat "name"` / `removecat name`: only an existing, empty
      category is deleted. */
  function DeleteCategory(command: string, data: Store): (r: Reply)
    requires Valid(data)
    ensures r.Handled? && Valid(r.data) && |r.out| == 2 && r.out[0] == Echo(command)
    ensures CategoryName(RemoveCatPattern, command).None? ==>
              r.data == data
              && r.out[1] == Plain(RemoveCatUsage)
    ensures CategoryName(RemoveCatPattern, command).Some? ==>
              var name := CategoryName(RemoveCatPattern, command).value;
              && (name !in data.vals ==>
                    r.data == data && r.out[1] == Plain("Category " + Quoted(name) + " does not exist."))
              && (name in data.vals && |data.vals[name]| > 0 ==>
                    r.data == data
                    && r.out[1] == Plain("Cannot remove " + Quoted(name) + ": contains "
                                         + NatToString(|data.vals[name]|) + " items. Remove items first."))
              && (name in data.vals && data.vals[name] == [] ==>
                    && r.data == Remove(data, name) && r.data.vals == data.vals - {name}
                    && name !in r.data.keys && |r.data.keys| == |data.keys| - 1
                    && r.out[1] == Plain("Removed category " + Quoted(name) + "."))
  {
    var name := CategoryName(RemoveCatPattern, command);
    if name.None? then
      Handled(data, [Echo(command), Plain(RemoveCatUsage)])
    else if name.value !in data.vals then
      Handled(data, [Echo(command), Plain("Category " + Quoted(name.value) + " does not exist.")])
    else if |data.vals[name.value]| > 0 then
      Handled(data, [Echo(command), Plain("Cannot remove " + Quoted(name.value) + ": contains "
                                          + NatToString(|data.vals[name.value]|) + " items. Remove items first.")])
    else
      Handled(Remove(data, name.value), [Echo(command), Plain("Removed category " + Quoted(name.value) + ".")])
  }

  /** The text `add` stores for a typed item: its normalized form when it
      looks like a link. */
  function Stored(item: string): (r: string)
    ensures IsURL(r) <==> IsURL(item)
  {
    CanonIdempotent(item);
    Canon(item)
  }

  /** `add "item" in category`: stores the normalized item at the end of the
      category, creating the category when absent, unless it duplicates an
      entry. */
  function AddItem(command: string, data: Store): (r: Reply)
    requires Valid(data)
    ensures r.Handled? && Valid(r.data) && |r.out| == 2 && r.out[0] == Echo(command)
    ensures Exec(AddPattern, command).None? ==>
              r.data == data && r.out[1] == Plain(AddUsage)
    ensures Exec(AddPattern, command).Some? ==>
              var item := Stored(Exec(AddPattern, command).value.first);
              var c := Exec(AddPattern, command).value.second;
              && (IsDuplicate(item, c, data) ==>
                    r.data == data
                    && r.out[1] == Plain("Duplicate detected! " + Quoted(item) + " already exists in " + c))
              && (!IsDuplicate(item, c, data) ==>
                    && c in r.data.vals && r.data.vals[c] == Items(data, c) + [item]
                    && (forall k :: k != c ==> (k in r.data.vals <==> k in data.vals))
                    && (forall k :: k != c && k in data.vals ==> r.data.vals[k] == data.vals[k])
                    && r.data.keys == (if c in data.vals then data.keys else data.keys + [c]))
  {
    var m := Exec(AddPattern, command);
    if m.None? then
      Handled(data, [Echo(command), Plain(AddUsage)])
    else
      var item := Stored(m.value.first);
      var c := m.value.second;
      if IsDuplicate(item, c, data) then
        Handled(data, [Echo(command), Plain("Duplicate detected! " + Quoted(item) + " already exists in " + c)])
      else
        var kind := if IsURL(item) then "(detected as link)" else "(stored as text)";
        Handled(Put(data, c, Items(data, c) + [item]),
                [Echo(command), Plain("Added " + Quoted(item) + " in " + c + " " + kind)])
  }

  /** `items.filter((_, index) => index !== k)` */
  function RemoveAt(items: seq<string>, k: nat): (r: seq<string>)
    requires k < |items|
    ensures |r| == |items| - 1
    ensures forall i :: 0 <= i < k ==> r[i] == items[i]
    ensures forall i :: k <= i < |r| ==> r[i] == items[i + 1]
    ensures multiset(r) + multiset{items[k]} == multiset(items)
  {
    assert items == items[..k] + [items[k]] + items[k + 1..];
    items[..k] + items[k + 1..]
  }

  /** `items.filter(keep)` */
  function Filter(items: seq<string>, keep: string -> bool): (r: seq<string>)
    decreases |items|
    ensures forall e :: e in r <==> e in items && keep(e)
    ensures forall e :: multiset(r)[e] == if keep(e) then multiset(items)[e] else 0
    ensures multiset(r) <= multiset(items) && |r| <= |items|
    ensures |r| == |items| <==> forall e :: e in items ==> keep(e)
    ensures (forall e :: e in items ==> keep(e)) ==> r == items
  {
    if items == [] then []
    else
      var rest := Filter(items[1..], keep);
      assert items == [items[0]] + items[1..];
      if keep(items[0]) then [items[0]] + rest else rest
  }

  /** Filtering works entry by entry: the kept entries of a concatenation
      are those of its parts, in the same order. */
  lemma {:induction false} FilterAppend(a: seq<string>, b: seq<string>, keep: string -> bool)
    ensures Filter(a + b, keep) == Filter(a, keep) + Filter(b, keep)
    decreases |a|
  {
    if a == [] {
      assert a + b == b;
    } else {
      var h := a[0];
      var head := if keep(h) then [h] else [];
      assert a == [h] + a[1..];
      assert a + b == [h] + (a[1..] + b);
      FilterCons(h, a[1..], keep);
      FilterCons(h, a[1..] + b, keep);
      FilterAppend(a[1..], b, keep);
      ConcatAssoc(head, Filter(a[1..], keep), Filter(b, keep));
    }
  }

  lemma ConcatAssoc(x: seq<string>, y: seq<string>, z: seq<string>)
    ensures x + (y + z) == (x + y) + z
  {
  }

  /** Filtering a sequence with a known first entry. */
  lemma FilterCons(h: string, t: seq<string>, keep: string -> bool)
    ensures Filter([h] + t, keep) == (if keep(h) then [h] else []) + Filter(t, keep)
  {
    assert ([h] + t)[0] == h && ([h] + t)[1..] == t;
  }

  /** A single rejected entry filters away to nothing. */
  lemma FilterDropsOne(x: string, keep: string -> bool)
    requires !keep(x)
    ensures Filter([x], keep) == []
  {
    assert [x][1..] == [];
  }

  /** When the entries that `keep` rejects are all one, single occurrence,
      filtering cuts out exactly that entry and keeps the rest in order. */
  lemma FilterCutsOne(a: seq<string>, x: string, b: seq<string>, keep: string -> bool)
    requires !keep(x)
    requires forall e :: e in a ==> keep(e)
    requires forall e :: e in b ==> keep(e)
    ensures Filter(a + [x] + b, keep) == a + b
  {
    FilterAppend(a + [x], b, keep);
    FilterAppend(a, [x], keep);
    FilterDropsOne(x, keep);
    assert Filter(a, keep) == a && Filter(b, keep) == b;
    assert a + [] == a;
  }

  /** `remove <id> from c`: removes exactly the entry at 1-based position
      `id`, when `c` exists and `id` is within its bounds. */
  function RemoveById(command: string, id: nat, c: string, data: Store): (r: Reply)
    requires Valid(data)
    ensures r.Handled? && Valid(r.data) && |r.out| == 2 && r.out[0] == Echo(command)
    ensures r.data.keys == data.keys
    ensures c in data.vals && 1 <= id <= |data.vals[c]| ==>
              r.data.vals == data.vals[c := RemoveAt(data.vals[c], id - 1)]
              && r.out[1] == Plain("Removed item #" + NatToString(id) + ": " + Quoted(data.vals[c][id - 1])
                                   + " from " + c)
    ensures !(c in data.vals && 1 <= id <= |data.vals[c]|) ==> r.data == data
    ensures c in data.vals && data.vals[c] != [] && !(1 <= id <= |data.vals[c]|) ==>
              r.out[1] == Plain("Invalid ID. " + c + " has " + NatToString(|data.vals[c]|)
                                + " items (use 1-" + NatToString(|data.vals[c]|) + ")")
    ensures (c !in data.vals || data.vals[c] == []) ==>
              r.out[1] == Plain("Category " + Quoted(c) + " not found or is empty")
  {
    if c in data.vals && |data.vals[c]| > 0 then
      var items := data.vals[c];
      if 1 <= id <= |items| then
        Handled(Put(data, c, RemoveAt(items, id - 1)),
                [Echo(command), Plain("Removed item #" + NatToString(id) + ": " + Quoted(items[id - 1]) + " from " + c)])
      else
        Handled(data, [Echo(command), Plain("Invalid ID. " + c + " has " + NatToString(|items|)
                                            + " items (use 1-" + NatToString(|items|) + ")")])
    else
      Handled(data, [Echo(command), Plain("Category " + Quoted(c) + " not found or is empty")])
  }

  /** `remove "item" from c`: removes every entry whose comparison form
      equals that of the item, case-sensitively. */
  function RemoveByName(command: string, item: string, c: string, data: Store): (r: Reply)
    requires Valid(data)
    ensures r.Handled? && Valid(r.data) && |r.out| == 2 && r.out[0] == Echo(command)
    ensures r.data.keys == data.keys
    ensures c !in data.vals ==> r.data == data && r.out[1] == Plain("Category " + Quoted(c) + " not found")
    ensures c in data.vals ==>
              var kept := Filter(data.vals[c], e => Canon(e) != Canon(item));
              && r.data.vals == data.vals[c := kept]
              && (|kept| == |data.vals[c]| ==>
                    (r.data == data && r.out[1] == Plain("Item " + Quoted(item) + " not found in " + c)))
              && (|kept| < |data.vals[c]| ==> r.out[1] == Plain("Removed " + Quoted(item) + " from " + c))
    ensures c in data.vals ==>
              forall e :: e in r.data.vals[c] <==> e in data.vals[c] && Canon(e) != Canon(item)
  {
    if c in data.vals then
      var key := Canon(item);
      var kept := Filter(data.vals[c], e => Canon(e) != key);
      if |kept| == |data.vals[c]| then
        Handled(data, [Echo(command), Plain("Item " + Quoted(item) + " not found in " + c)])
      else
        Handled(Put(data, c, kept), [Echo(command), Plain("Removed " + Quoted(item) + " from " + c)])
    else
      Handled(data, [Echo(command), Plain("Category " + Quoted(c) + " not found")])
  }

  /** Removing by name an item that matches exactly one entry cuts out that
      entry: the others stay in order, and no other category changes. */
  lemma RemoveByNameCutsOne(command: string, item: string, c: string, data: Store,
                            a: seq<string>, x: string, b: seq<string>)
    requires Valid(data) && c in data.vals && data.vals[c] == a + [x] + b
    requires Canon(x) == Canon(item)
    requires forall e :: e in a ==> Canon(e) != Canon(item)
    requires forall e :: e in b ==> Canon(e) != Canon(item)
    ensures var r := RemoveByName(command, item, c, data);
            && r.data.vals[c] == a + b && r.data.keys == data.keys
            && (forall d :: d in data.vals && d != c ==> d in r.data.vals && r.data.vals[d] == data.vals[d])
            && r.out[1] == Plain("Removed " + Quoted(item) + " from " + c)
  {
    FilterCutsOne(a, x, b, e => Canon(e) != Canon(item));
  }

  /** The removal chosen by the two patterns' results: the ID form wins over
      the name form, and neither gives the usage message. */
  function RemoveMatched(command: string, byId: Option<Captures>, byName: Option<Captures>, data: Store): (r: Reply)
    requires Valid(data)
    requires byId.Some? ==> WellFormed(RemoveIdPattern, byId.value)
    ensures r.Handled? && Valid(r.data) && |r.out| == 2 && r.out[0] == Echo(command)
    ensures r.data.keys == data.keys
    ensures byId.Some? ==> r == RemoveById(command, DigitsValue(byId.value.first), byId.value.second, data)
    ensures byId.None? && byName.Some? ==> r == RemoveByName(command, byName.value.first, byName.value.second, data)
    ensures byId.None? && byName.None? ==>
              r.data == data
              && r.out[1] == Plain(RemoveUsage)
  {
    if byId.Some? then
      RemoveById(command, DigitsValue(byId.value.first), byId.value.second, data)
    else if byName.Some? then
      RemoveByName(command, byName.value.first, byName.value.second, data)
    else
      Handled(data, [Echo(command), Plain(RemoveUsage)])
  }

  /** `remove <id> from category` and `remove "item" from category`: the ID
      form is searched for first, then the name form. */
  function RemoveItem(command: string, data: Store): Reply
    requires Valid(data)
  {
    RemoveMatched(command, Exec(RemoveIdPattern, command), Exec(RemoveNamePattern, command), data)
  }

  /** The keyword shapes `handleDataCommands` tells apart, in the order it
      tests them. */
  datatype DataCommand = ListCmd | AddCatCmd | RemoveCatCmd | AddCmd | RemoveCmd | OtherCmd

  function Classify(command: string): (k: DataCommand)
    ensures k == ListCmd <==> command == "categories" || command == "cats"
    ensures k == AddCatCmd <==> StartsWith(command, "addcat")
    ensures k == RemoveCatCmd <==> StartsWith(command, "removecat")
    ensures k == AddCmd <==> StartsWith(command, "add") && !StartsWith(command, "addcat")
    ensures k == RemoveCmd <==> StartsWith(command, "remove") && !StartsWith(command, "removecat")
    ensures k == OtherCmd <==>
              && command != "categories" && command != "cats"
              && !StartsWith(command, "add") && !StartsWith(command, "remove")
  {
    assert StartsWith(command, "addcat") ==> command[..3] == "addcat"[..3] && command[0] == 'a';
    assert StartsWith(command, "removecat") ==> command[..6] == "removecat"[..6] && command[0] == 'r';
    assert StartsWith(command, "add") ==> command[0] == "add"[0];
    assert StartsWith(command, "remove") ==> command[0] == "remove"[0];
    if command == "categories" || command == "cats" then
      assert command[0] == 'c';
      ListCmd
    else if StartsWith(command, "addcat") then AddCatCmd
    else if StartsWith(command, "removecat") then RemoveCatCmd
    else if StartsWith(command, "add") then AddCmd
    else if StartsWith(command, "remove") then RemoveCmd
    else OtherCmd
  }

  /** `handleDataCommands`: the first recognized command shape wins, and a
      command with none of the keywords is left to the next handler. */
  function HandleDataCommands(command: string, data: Store): (r: Reply)
    requires Valid(data)
    ensures r.NotHandled? <==> Classify(command) == OtherCmd
    ensures r.Handled? ==> Valid(r.data) && |r.out| == 2 && r.out[0] == Echo(command)
    ensures Classify(command) == ListCmd ==> r == ListCategories(command, data)
    ensures Classify(command) == AddCatCmd ==> r == CreateCategory(command, data)
    ensures Classify(command) == RemoveCatCmd ==> r == DeleteCategory(command, data)
    ensures Classify(command) == AddCmd ==> r == AddItem(command, data)
    ensures Classify(command) == RemoveCmd ==> r == RemoveItem(command, data)
  {
    match Classify(command)
    case ListCmd => ListCategories(command, data)
    case AddCatCmd => CreateCategory(command, data)
    case RemoveCatCmd => DeleteCategory(command, data)
    case AddCmd => AddItem(command, data)
    case RemoveCmd => RemoveItem(command, data)
    case OtherCmd => NotHandled
  }

  /** `${i}. ${marker} ${item}`, the marker telling links from text. */
  function ItemLine(i: nat, item: string): string {
    NatToString(i) + ". " + (if IsURL(item) then "\U{1F517}" else "\U{1F4DD}") + " " + item
  }

  function ItemLines(items: seq<string>): (r: seq<string>)
    ensures |r| == |items|
    ensures forall i :: 0 <= i < |r| ==> r[i] == ItemLine(i + 1, items[i])
  {
    seq(|items|, i requires 0 <= i < |items| => ItemLine(i + 1, items[i]))
  }

  /** `handleCategoryDisplay`: typing the exact name of a category shows its
      numbered items; the store is never changed. */
  function HandleCategoryDisplay(command: string, data: Store): (r: Reply)
    ensures r.Handled? <==> Trim(command) in data.vals
    ensures r.Handled? ==> r.data == data && |r.out| == 2 && r.out[0] == Echo(command)
    ensures r.Handled? && data.vals[Trim(command)] == [] ==>
              r.out[1] == Plain("Category " + Quoted(Trim(command)) + " is empty")
    ensures r.Handled? && data.vals[Trim(command)] != [] ==>
              var items := data.vals[Trim(command)];
              r.out[1] == Plain("Items in " + Quoted(Trim(command)) + " (" + NatToString(|items|) + "):\n"
                                + Join(ItemLines(items), "\n"))
  {
    var c := Trim(command);
    if c !in data.vals then NotHandled
    else if data.vals[c] == [] then
      Handled(data, [Echo(command), Plain("Category " + Quoted(c) + " is empty")])
    else
      Handled(data, [Echo(command), Plain("Items in " + Quoted(c) + " (" + NatToString(|data.vals[c]|) + "):\n"
                                          + Join(ItemLines(data.vals[c]), "\n"))])
  }

  /** One more item adds one more numbered line at the end. */
  lemma ItemLinesAppend(items: seq<string>, x: string)
    ensures ItemLines(items + [x]) == ItemLines(items) + [ItemLine(|items| + 1, x)]
  {
  }

  /** After a new item is added to a category, showing the category lists the
      old items as before, followed by the stored item under the next
      number. */
  lemma DisplayAfterAdd(item: string, c: string, data: Store)
    requires Valid(data) && c in data.vals
    requires |item| > 0 && NoLineTerminator(item) && '"' !in item && IsWord(c)
    requires !IsDuplicate(Stored(item), c, data)
    ensures var shown := HandleCategoryDisplay(c, AddItem(AddCommand(item, c), data).data);
            var n := |data.vals[c]| + 1;
            && shown.Handled?
            && shown.out[1] == Plain("Items in " + Quoted(c) + " (" + NatToString(n) + "):\n"
                                     + Join(ItemLines(data.vals[c]) + [ItemLine(n, Stored(item))], "\n"))
  {
    AddStep(item, c, data);
    WordIsTrimmed(c);
    TrimOfTrimmed(c);
    ItemLinesAppend(data.vals[c], Stored(item));
  }

  /** `add "item" in c`, spelled the way the help text shows it. */
  function AddCommand(item: string, c: string): string {
    "add" + " \"" + item + "\" " + "in" + " " + c
  }

  /** `remove <id> from c`, spelled the way the help text shows it. */
  function RemoveIdCommand(id: nat, c: string): string {
    "remove" + " " + NatToString(id) + " " + "from" + " " + c
  }

  /** The canonical `add` command is understood as written. */
  lemma AddCommandParses(item: string, c: string)
    requires |item| > 0 && NoLineTerminator(item) && '"' !in item && IsWord(c)
    ensures Exec(AddPattern, AddCommand(item, c)) == Some(Captures(item, c))
  {
    QuotedThenWordRoundTrip("add", item, "in", c);
  }

  /** The canonical `remove <id>` command addresses the position written. */
  lemma RemoveIdCommandParses(id: nat, c: string)
    requires IsWord(c)
    ensures Exec(RemoveIdPattern, RemoveIdCommand(id, c)) == Some(Captures(NatToString(id), c))
    ensures DigitsValue(NatToString(id)) == id
  {
    DigitsThenWordRoundTrip("remove", NatToString(id), "from", c);
    DigitsRoundTrip(id);
  }

  /** Repeating an `add` changes nothing: what the first one stored is a
      duplicate for the second. */
  lemma AddIdempotent(command: string, data: Store)
    requires Valid(data)
    ensures AddItem(command, AddItem(command, data).data).data == AddItem(command, data).data
  {
    var m := Exec(AddPattern, command);
    if m.Some? {
      var item := Stored(m.value.first);
      var c := m.value.second;
      var once := AddItem(command, data).data;
      if !IsDuplicate(item, c, data) {
        assert item in once.vals[c];
        IsDuplicateIff(item, c, once);
        assert IsURL(item) ==> Canon(item) == NormalizeURL(item);
      }
    }
  }

  /** Adding a new item to an existing category and then removing the last
      position of that category restores the store. */
  lemma AddThenRemoveLast(item: string, c: string, data: Store)
    requires Valid(data) && c in data.vals
    requires |item| > 0 && NoLineTerminator(item) && '"' !in item && IsWord(c)
    requires !IsDuplicate(Stored(item), c, data)
    ensures var added := AddItem(AddCommand(item, c), data);
            && added.data.vals[c] == data.vals[c] + [Stored(item)]
            && RemoveItem(RemoveIdCommand(|data.vals[c]| + 1, c), added.data).data == data
  {
    var items := data.vals[c];
    var x := Stored(item);
    AddStep(item, c, data);
    var added := Dict(data.keys, data.vals[c := items + [x]]);
    RemoveIdStep(|items| + 1, c, added);
    RestoreLast(data, c, x);
  }

  /** Putting `items + [x]` and then its first `|items|` entries back under
      `c` restores the store. */
  lemma RestoreLast(data: Store, c: string, x: string)
    requires c in data.vals
    ensures var added := data.vals[c := data.vals[c] + [x]];
            Dict(data.keys, added[c := RemoveAt(added[c], |data.vals[c]|)]) == data
  {
    var items := data.vals[c];
    RemoveLastAgain(items, x);
    assert data.vals[c := items + [x]][c := items] == data.vals;
  }

  /** Adding a fresh item to an existing category through the command text. */
  lemma AddStep(item: string, c: string, data: Store)
    requires Valid(data) && c in data.vals
    requires |item| > 0 && NoLineTerminator(item) && '"' !in item && IsWord(c)
    requires !IsDuplicate(Stored(item), c, data)
    ensures AddItem(AddCommand(item, c), data).data == Dict(data.keys, data.vals[c := data.vals[c] + [Stored(item)]])
  {
    AddCommandParses(item, c);
  }

  /** Removing an in-range position through the command text. */
  lemma RemoveIdStep(n: nat, c: string, data: Store)
    requires Valid(data) && IsWord(c) && c in data.vals && 1 <= n <= |data.vals[c]|
    ensures RemoveItem(RemoveIdCommand(n, c), data).data == Dict(data.keys, data.vals[c := RemoveAt(data.vals[c], n - 1)])
  {
    RemoveIdCommandParses(n, c);
  }

  /** Removing the entry at the last position of `items + [x]` gives `items`. */
  lemma RemoveLastAgain(items: seq<string>, x: string)
    ensures RemoveAt(items + [x], |items|) == items
  {
    assert (items + [x])[..|items|] == items;
  }

  /** Creating a category and deleting it again, while it is still empty,
      restores the store. */
  lemma CreateThenDelete(name: string, data: Store)
    requires Valid(data) && IsWord(name) && name !in data.vals
    ensures var created := CreateCategory("addcat" + " " + name, data).data;
            && created.vals == data.vals[name := []]
            && DeleteCategory("removecat" + " " + name, created).data == data
  {
    QuotedOrWordRoundTripWord("addcat", name);
    QuotedOrWordRoundTripWord("removecat", name);
    RemoveAfterPut(data, name, []);
  }

  /** After `addcat name` for a new word-named category, the category listing
      is the old one followed by a single `name (0 items)` line. */
  lemma ListingAfterCreate(name: string, data: Store)
    requires Valid(data) && IsWord(name) && name !in data.vals
    ensures CategoryLines(CreateCategory("addcat" + " " + name, data).data)
            == CategoryLines(data) + [CategoryLine(|data.keys| + 1, name, 0)]
  {
    QuotedOrWordRoundTripWord("addcat", name);
    assert CreateCategory("addcat" + " " + name, data).data == Put(data, name, []);
    LinesAfterPut(data, name);
  }

  /** A new empty category adds one line at the end of the listing. */
  lemma LinesAfterPut(data: Store, name: string)
    requires Valid(data) && name !in data.vals
    ensures CategoryLines(Put(data, name, [])) == CategoryLines(data) + [CategoryLine(|data.keys| + 1, name, 0)]
  {
    var created := Put(data, name, []);
    var before := CategoryLines(data);
    var after := CategoryLines(created);
    var last := CategoryLine(|data.keys| + 1, name, 0);
    var n := |before|;
    assert |after| == n + 1;
    forall j | 0 <= j < n
      ensures after[..n][j] == before[j]
    {
      LineBeforeAdded(data, name, j);
    }
    assert after[..n] == before;
    assert created.keys[n] == name && Items(created, name) == [];
    assert after[n] == last;
    EndsWith(after, before, last);
  }

  /** A list whose leading part is `before` and whose one further entry is
      `last` is `before + [last]`. */
  lemma EndsWith(after: seq<string>, before: seq<string>, last: string)
    requires |after| == |before| + 1 && after[..|before|] == before && after[|before|] == last
    ensures after == before + [last]
  {
    assert after == after[..|before|] + [after[|before|]];
  }

  /** A line of the listing keeps its place when a new category is added. */
  lemma LineBeforeAdded(data: Store, name: string, j: nat)
    requires Valid(data) && name !in data.vals && j < |data.keys|
    ensures CategoryLines(Put(data, name, []))[j] == CategoryLines(data)[j]
  {
    assert data.keys[j] in data.vals;
    assert Put(data, name, []).keys[j] == data.keys[j];
  }

  /** After `removecat name` for an empty word-named category, the lines
      before it are unchanged and every later category moves up one place,
      keeping its count: the `name` line is gone. */
  lemma ListingAfterDelete(name: string, data: Store)
    requires Valid(data) && IsWord(name) && name in data.vals && data.vals[name] == []
    ensures var after := CategoryLines(DeleteCategory("removecat" + " " + name, data).data);
            var i := IndexOf(data.keys, name);
            && |after| == |data.keys| - 1
            && after[..i] == CategoryLines(data)[..i]
            && forall j :: i <= j < |after| ==>
                 after[j] == CategoryLine(j + 1, data.keys[j + 1], |Items(data, data.keys[j + 1])|)
  {
    QuotedOrWordRoundTripWord("removecat", name);
    assert DeleteCategory("removecat" + " " + name, data).data == Remove(data, name);
    LinesAfterRemove(data, name);
  }

  /** Removing a category drops its line; the later lines move up one place. */
  lemma LinesAfterRemove(data: Store, name: string)
    requires Valid(data) && name in data.vals
    ensures var after := CategoryLines(Remove(data, name));
            var i := IndexOf(data.keys, name);
            && |after| == |data.keys| - 1
            && after[..i] == CategoryLines(data)[..i]
            && forall j :: i <= j < |after| ==>
                 after[j] == CategoryLine(j + 1, data.keys[j + 1], |Items(data, data.keys[j + 1])|)
  {
    var i := IndexOf(data.keys, name);
    var after := CategoryLines(Remove(data, name));
    var before := CategoryLines(data);
    assert |after| == |data.keys| - 1 && |before| == |data.keys| && i < |data.keys|;
    forall j | 0 <= j < i
      ensures after[..i][j] == before[..i][j]
    {
      LineBeforeRemoved(data, name, j);
    }
    assert after[..i] == before[..i];
    forall j | i <= j < |after|
      ensures after[j] == CategoryLine(j + 1, data.keys[j + 1], |Items(data, data.keys[j + 1])|)
    {
      LineAfterRemoved(data, name, j);
    }
  }

  /** A line ahead of the removed category keeps its place. */
  lemma LineBeforeRemoved(data: Store, name: string, j: nat)
    requires Valid(data) && name in data.vals && j < IndexOf(data.keys, name)
    ensures CategoryLines(Remove(data, name))[j] == CategoryLines(data)[j]
  {
    var i := IndexOf(data.keys, name);
    assert Remove(data, name).keys[j] == data.keys[j];
  }

  /** A line behind the removed category moves up one place. */
  lemma LineAfterRemoved(data: Store, name: string, j: nat)
    requires Valid(data) && name in data.vals && IndexOf(data.keys, name) <= j < |data.keys| - 1
    ensures CategoryLines(Remove(data, name))[j] == CategoryLine(j + 1, data.keys[j + 1], |Items(data, data.keys[j + 1])|)
  {
    var i := IndexOf(data.keys, name);
    assert Remove(data, name).keys[j] == data.keys[j + 1];
    assert data.keys[j + 1] != name;
  }
}

=== FILE: dict.dfy ===
/**
 A JavaScript object used as a dictionary from strings: a map together with
 the order in which `Object.keys` and `Object.entries` enumerate its keys
 (insertion order; a new key goes to the end, an overwritten key keeps its
 place, a deleted key drops out).
 */
module Dict {

  datatype Dict<V> = Dict(keys: seq<string>, vals: map<string, V>)

  ghost predicate Distinct(keys: seq<string>) {
    forall i, j :: 0 <= i < j < |keys| ==> keys[i] != keys[j]
  }

  /** The key order lists every key of the map exactly once. */
  ghost predicate Valid<V>(d: Dict<V>) {
    && Distinct(d.keys)
    && forall k :: k in d.vals <==> k in d.keys
  }

  function Empty<V>(): (d: Dict<V>)
    ensures Valid(d) && d.keys == [] && d.vals == map[]
  {
    Dict([], map[])
  }

  /** `{ ...d, [k]: v }` */
  function Put<V>(d: Dict<V>, k: string, v: V): (r: Dict<V>)
    requires Valid(d)
    ensures Valid(r)
    ensures r.vals == d.vals[k := v]
    ensures k in d.vals ==> r.keys == d.keys
    ensures k !in d.vals ==> r.keys == d.keys + [k]
  {
    if k in d.vals then Dict(d.keys, d.vals[k := v]) else Dict(d.keys + [k], d.vals[k := v])
  }

  /** The position of a key in the enumeration order. */
  function IndexOf(keys: seq<string>, k: string): (i: nat)
    requires k in keys
    ensures i < |keys| && keys[i] == k
    ensures forall j :: 0 <= j < i ==> keys[j] != k
  {
    if keys[0] == k then 0 else 1 + IndexOf(keys[1..], k)
  }

  /** `const r = { ...d }; delete r[k];` */
  function Remove<V>(d: Dict<V>, k: string): (r: Dict<V>)
    requires Valid(d)
    ensures Valid(r)
    ensures r.vals == d.vals - {k}
    ensures k !in d.vals ==> r.keys == d.keys
    ensures k in d.vals ==> |r.keys| == |d.keys| - 1
    ensures k in d.vals ==>
              var i := IndexOf(d.keys, k);
              r.keys == d.keys[..i] + d.keys[i + 1..]
  {
    if k in d.vals then
      var i := IndexOf(d.keys, k);
      RemoveValid(d, k, i);
      Dict(d.keys[..i] + d.keys[i + 1..], d.vals - {k})
    else
      d
  }

  /** Cutting a key out of its place in the key order and out of the map
      keeps the dictionary well formed. */
  lemma RemoveValid<V>(d: Dict<V>, k: string, i: nat)
    requires Valid(d) && i < |d.keys| && d.keys[i] == k
    ensures Valid(Dict(d.keys[..i] + d.keys[i + 1..], d.vals - {k}))
    ensures |d.keys[..i] + d.keys[i + 1..]| == |d.keys| - 1
  {
    DropAt(d.keys, i);
  }

  /** Cutting one position out of a list of distinct keys leaves the other
      keys, still distinct. */
  lemma DropAt(keys: seq<string>, i: nat)
    requires Distinct(keys) && i < |keys|
    ensures Distinct(keys[..i] + keys[i + 1..])
    ensures forall x :: x in keys[..i] + keys[i + 1..] <==> x in keys && x != keys[i]
  {
    var rest := keys[..i] + keys[i + 1..];
    assert forall j :: 0 <= j < |rest| ==> rest[j] == keys[if j < i then j else j + 1];
    forall x | x in keys && x != keys[i]
      ensures x in rest
    {
      var j :| 0 <= j < |keys| && keys[j] == x;
      if j < i { assert rest[j] == x; } else { assert rest[j - 1] == x; }
    }
  }

  /** Writing back the value a key already has changes nothing. */
  lemma PutExisting<V>(d: Dict<V>, k: string)
    requires Valid(d) && k in d.vals
    ensures Put(d, k, d.vals[k]) == d
  {
  }

  /** Deleting a key that was just added restores the dictionary, key order
      included. */
  lemma {:induction false} RemoveAfterPut<V>(d: Dict<V>, k: string, v: V)
    requires Valid(d) && k !in d.vals
    ensures Remove(Put(d, k, v), k) == d
  {
    var p := Put(d, k, v);
    assert p.keys == d.keys + [k];
    assert forall j :: 0 <= j < |d.keys| ==> p.keys[j] != k;
    assert IndexOf(p.keys, k) == |d.keys| by {
      var i := IndexOf(p.keys, k);
      assert p.keys[i] == k;
    }
    assert p.keys[..|d.keys|] == d.keys;
    assert p.vals - {k} == d.vals;
  }
}

=== FILE: output.dfy ===
/**
 The transcript: the lines the terminal shows, in order. Every handler
 appends to it through `setHistory(prev => [...prev, ...])`, except `clear`
 (which empties it) and the login/logout banners (which replace it).
 */
module Output {
  import opened Wrappers
  import opened Text

  datatype Line =
    | Plain(text: string)
      /** An object line `{ text, className: 'terminal-error' }`. */
    | Error(text: string)
      /** One numbered row of the older category view: the item as shown,
          and the link target when it looks like a link. */
    | Entry(pos: nat, text: string, href: Option<string>)
      /** The lines of the `debug` dump, whose contents are not modelled. */
    | DebugDump

  const Prompt := "root@mycmd:~$ "

  /** The echo of a command that precedes its result lines. */
  function Echo(command: string): Line {
    Plain(Prompt + command)
  }

  function Quoted(s: string): string {
    "\"" + s + "\""
  }
}

=== FILE: regex.dfy ===
/**
 Hand-written matchers for the few regular expressions the command grammar
 uses, with the semantics of JavaScript's `String.prototype.match` on a
 pattern without the `g` flag: the pattern is not anchored, so the result is
 the match found at the leftmost position where one exists, and at that
 position backtracking picks the shortest lazy `.+?` and the longest greedy
 runs.

 The shapes are
   kw\s+"(.+?)"\s+sep\s+(\w+)      (add, remove by name, alias)
   kw\s+(\d+)\s+sep\s+(\w+)        (remove by ID)
   kw\s+"(.+?)"|kw\s+(\w+)         (addcat, removecat)
 In each of them a greedy run is followed by a character its class cannot
 match (a quote after `\s+`, a separator that starts with a letter, a word
 character after `\s+`, white space after `\d+`), so a greedy run always
 takes the longest run and never has to give characters back.
 */
module Regex {
  import opened Wrappers
  import opened Text

  datatype Class = Space | Word | Digit

  predicate InClass(cls: Class, c: char) {
    match cls
    case Space => IsSpace(c)
    case Word => IsWordChar(c)
    case Digit => IsDigit(c)
  }

  /** Where the longest run of `cls` characters starting at `i` ends. */
  function Run(cls: Class, s: string, i: nat): (r: nat)
    requires i <= |s|
    decreases |s| - i
    ensures i <= r <= |s|
    ensures r == |s| || !InClass(cls, s[r])
  {
    if i < |s| && InClass(cls, s[i]) then Run(cls, s, i + 1) else i
  }

  /** Every character the run passes over is in the class. */
  lemma {:induction false} RunSpan(cls: Class, s: string, i: nat)
    requires i <= |s|
    decreases |s| - i
    ensures forall k :: i <= k < Run(cls, s, i) ==> InClass(cls, s[k])
  {
    if i < |s| && InClass(cls, s[i]) {
      RunSpan(cls, s, i + 1);
    }
  }

  /** The literal `lit` occurs in `s` at position `i`. */
  predicate LitAt(s: string, i: nat, lit: string) {
    i + |lit| <= |s| && s[i..i + |lit|] == lit
  }

  /** The two capture groups of a successful match; `second` is empty for
      the `addcat`/`removecat` shape, whose name is `match[1] || match[2]`. */
  datatype Captures = Captures(first: string, second: string)

  /** `\s+sep\s+(\w+)` at position `p`, giving the captured word. */
  function SepWordAt(s: string, p: nat, sep: string): (r: Option<string>)
    requires p <= |s|
    ensures r.Some? ==> IsWord(r.value)
  {
    var a := Run(Space, s, p);
    if a == p || !LitAt(s, a, sep) then None
    else
      var b := Run(Space, s, a + |sep|);
      if b == a + |sep| then None
      else
        var c := Run(Word, s, b);
        if c == b then None
        else
          RunSpan(Word, s, b);
          assert forall k :: 0 <= k < c - b ==> s[b..c][k] == s[b + k];
          Some(s[b..c])
  }

  /** What must follow the closing quote: `\s+sep\s+(\w+)` when `sep` is
      given, nothing otherwise. */
  function TailAt(s: string, p: nat, sep: Option<string>): (r: Option<string>)
    requires p <= |s|
    ensures r.Some? && sep.Some? ==> IsWord(r.value)
  {
    match sep
    case None => Some("")
    case Some(w) => SepWordAt(s, p, w)
  }

  /** `(.+?)"` followed by the tail, where the item starts at `start` and
      `s[start..e]` has already been consumed by `.`: the first `e` at which a
      closing quote and the tail match ends the item; otherwise `.` consumes
      one more character, which it cannot do at a line terminator. */
  function LazyQuoted(s: string, start: nat, e: nat, sep: Option<string>): (r: Option<Captures>)
    requires start < e <= |s|
    requires NoLineTerminator(s[start..e])
    decreases |s| - e
    ensures r.Some? ==> |r.value.first| > 0 && NoLineTerminator(r.value.first)
    ensures r.Some? && sep.Some? ==> IsWord(r.value.second)
    ensures r.Some? && sep.None? ==> r.value.second == ""
  {
    if e < |s| && s[e] == '"' && TailAt(s, e + 1, sep).Some? then
      Some(Captures(s[start..e], TailAt(s, e + 1, sep).value))
    else if e < |s| && !IsLineTerminator(s[e]) then
      assert s[start..e + 1] == s[start..e] + [s[e]];
      LazyQuoted(s, start, e + 1, sep)
    else
      None
  }

  /** `kw\s+"(.+?)"` followed by the tail, at position `i`. */
  function QuotedAt(s: string, i: nat, kw: string, sep: Option<string>): (r: Option<Captures>)
    requires i <= |s|
    ensures r.Some? ==> LitAt(s, i, kw)
    ensures r.Some? ==> |r.value.first| > 0 && NoLineTerminator(r.value.first)
    ensures r.Some? && sep.Some? ==> IsWord(r.value.second)
    ensures r.Some? && sep.None? ==> r.value.second == ""
  {
    if !LitAt(s, i, kw) then None
    else
      var a := Run(Space, s, i + |kw|);
      if a == i + |kw| || a + 1 >= |s| || s[a] != '"' || IsLineTerminator(s[a + 1]) then None
      else LazyQuoted(s, a + 1, a + 2, sep)
  }

  datatype Pattern =
    | QuotedThenWord(kw: string, sep: string)
    | DigitsThenWord(kw: string, sep: string)
    | QuotedOrWord(kw: string)

  /** The keyword every match of `p` starts with. */
  function Keyword(p: Pattern): string {
    match p
    case QuotedThenWord(kw, _) => kw
    case DigitsThenWord(kw, _) => kw
    case QuotedOrWord(kw) => kw
  }

  /** What the captures of a match of `p` look like. */
  predicate WellFormed(p: Pattern, c: Captures) {
    match p
    case QuotedThenWord(_, _) => |c.first| > 0 && NoLineTerminator(c.first) && IsWord(c.second)
    case DigitsThenWord(_, _) => |c.first| > 0 && AllDigits(c.first) && IsWord(c.second)
    case QuotedOrWord(_) => |c.first| > 0 && NoLineTerminator(c.first) && c.second == ""
  }

  /** `kw\s+(\d+)\s+sep\s+(\w+)` at position `i`. */
  function DigitsAt(s: string, i: nat, kw: string, sep: string): (r: Option<Captures>)
    requires i <= |s|
    ensures r.Some? ==> LitAt(s, i, kw)
    ensures r.Some? ==> |r.value.first| > 0 && AllDigits(r.value.first) && IsWord(r.value.second)
  {
    if !LitAt(s, i, kw) then None
    else
      var a := Run(Space, s, i + |kw|);
      var d := Run(Digit, s, a);
      if a == i + |kw| || d == a then None
      else
        var w := SepWordAt(s, d, sep);
        if w.None? then None
        else
          RunSpan(Digit, s, a);
          assert forall k :: 0 <= k < d - a ==> s[a..d][k] == s[a + k];
          Some(Captures(s[a..d], w.value))
  }

  /** `kw\s+(\w+)` at position `i`. */
  function WordAt(s: string, i: nat, kw: string): (r: Option<Captures>)
    requires i <= |s|
    ensures r.Some? ==> LitAt(s, i, kw)
    ensures r.Some? ==> IsWord(r.value.first) && r.value.second == ""
  {
    if !LitAt(s, i, kw) then None
    else
      var a := Run(Space, s, i + |kw|);
      var w := Run(Word, s, a);
      if a == i + |kw| || w == a then None
      else
        RunSpan(Word, s, a);
        assert forall k :: 0 <= k < w - a ==> s[a..w][k] == s[a + k];
        Some(Captures(s[a..w], ""))
  }

  /** The match of `p` that starts exactly at position `i`, if there is one;
      an alternation tries its first alternative first. */
  function MatchAt(p: Pattern, s: string, i: nat): (r: Option<Captures>)
    requires i <= |s|
    ensures r.Some? ==> LitAt(s, i, Keyword(p)) && WellFormed(p, r.value)
  {
    match p
    case QuotedThenWord(kw, sep) => QuotedAt(s, i, kw, Some(sep))
    case DigitsThenWord(kw, sep) => DigitsAt(s, i, kw, sep)
    case QuotedOrWord(kw) =>
      var quoted := QuotedAt(s, i, kw, None);
      if quoted.Some? then quoted
      else
        var word := WordAt(s, i, kw);
        if word.Some? then
          assert forall k :: 0 <= k < |word.value.first| ==> !IsLineTerminator(word.value.first[k]);
          word
        else None
  }

  /** The leftmost match of `p` at or after position `i`. */
  function SearchFrom(p: Pattern, s: string, i: nat): Option<Captures>
    requires i <= |s|
    decreases |s| - i
  {
    var here := MatchAt(p, s, i);
    if here.Some? then here
    else if i == |s| then None
    else SearchFrom(p, s, i + 1)
  }

  /** What the search finds is the match at some position, with no match
      before it. */
  lemma {:induction false} SearchFromFinds(p: Pattern, s: string, i: nat)
    requires i <= |s|
    decreases |s| - i
    ensures SearchFrom(p, s, i).Some? ==>
              exists j :: i <= j <= |s| && MatchAt(p, s, j) == SearchFrom(p, s, i)
                          && forall k :: i <= k < j ==> MatchAt(p, s, k).None?
  {
    var r := SearchFrom(p, s, i);
    if MatchAt(p, s, i).Some? {
      assert MatchAt(p, s, i) == r;
    } else if i < |s| {
      assert r == SearchFrom(p, s, i + 1);
      SearchFromFinds(p, s, i + 1);
      if r.Some? {
        var j :| i + 1 <= j <= |s| && MatchAt(p, s, j) == r
                 && forall k :: i + 1 <= k < j ==> MatchAt(p, s, k).None?;
        assert forall k :: i <= k < j ==> MatchAt(p, s, k).None?;
      }
    }
  }

  /** The search fails exactly when no position from `i` on matches. */
  lemma {:induction false} SearchFromFails(p: Pattern, s: string, i: nat)
    requires i <= |s|
    decreases |s| - i
    ensures SearchFrom(p, s, i).None? <==> forall j :: i <= j <= |s| ==> MatchAt(p, s, j).None?
  {
    if MatchAt(p, s, i).None? && i < |s| {
      SearchFromFails(p, s, i + 1);
    }
  }

  /** `s.match(p)`: the leftmost match anywhere in `s`. */
  function Exec(p: Pattern, s: string): (r: Option<Captures>)
    ensures r.Some? ==> WellFormed(p, r.value)
    ensures r.Some? ==>
              exists j :: 0 <= j <= |s| && MatchAt(p, s, j) == r
                          && forall k :: 0 <= k < j ==> MatchAt(p, s, k).None?
    ensures r.None? <==> forall j :: 0 <= j <= |s| ==> MatchAt(p, s, j).None?
  {
    SearchFromFinds(p, s, 0);
    SearchFromFails(p, s, 0);
    SearchFrom(p, s, 0)
  }

  /** The lazy item stops at the first quote that the tail can follow. */
  lemma {:induction false} LazyQuotedReaches(s: string, start: nat, e: nat, end: nat, sep: Option<string>)
    requires start < e <= end < |s|
    requires NoLineTerminator(s[start..e])
    requires NoLineTerminator(s[e..end]) && '"' !in s[e..end]
    requires s[end] == '"' && TailAt(s, end + 1, sep).Some?
    ensures LazyQuoted(s, start, e, sep) == Some(Captures(s[start..end], TailAt(s, end + 1, sep).value))
    decreases end - e
  {
    if e < end {
      var rest := s[e..end];
      assert rest[0] == s[e] && s[e + 1..end] == rest[1..];
      LazyQuotedSkips(s, start, e, sep);
      LazyQuotedReaches(s, start, e + 1, end, sep);
      assert LazyQuoted(s, start, e + 1, sep) == Some(Captures(s[start..end], TailAt(s, end + 1, sep).value));
    } else {
      LazyQuotedStops(s, start, e, sep);
      assert LazyQuoted(s, start, e, sep) == Some(Captures(s[start..end], TailAt(s, end + 1, sep).value));
    }
  }

  /** A quote that the tail can follow ends the item. */
  lemma LazyQuotedStops(s: string, start: nat, e: nat, sep: Option<string>)
    requires start < e < |s| && NoLineTerminator(s[start..e])
    requires s[e] == '"' && TailAt(s, e + 1, sep).Some?
    ensures LazyQuoted(s, start, e, sep) == Some(Captures(s[start..e], TailAt(s, e + 1, sep).value))
  {
  }

  /** A character that is neither a quote nor a line terminator is taken into
      the item. */
  lemma LazyQuotedSkips(s: string, start: nat, e: nat, sep: Option<string>)
    requires start < e < |s| && NoLineTerminator(s[start..e])
    requires s[e] != '"' && !IsLineTerminator(s[e])
    ensures NoLineTerminator(s[start..e + 1])
    ensures LazyQuoted(s, start, e, sep) == LazyQuoted(s, start, e + 1, sep)
  {
    assert s[start..e + 1] == s[start..e] + [s[e]];
  }

  /** A run stops at the first character outside its class. */
  lemma RunUntil(cls: Class, s: string, i: nat, e: nat)
    requires i <= e <= |s|
    requires forall k :: i <= k < e ==> InClass(cls, s[k])
    requires e == |s| || !InClass(cls, s[e])
    ensures Run(cls, s, i) == e
  {
    RunSpan(cls, s, i);
  }

  /** A word followed by the end of the text or by white space is taken whole
      by `\s+sep\s+(\w+)`. */
  lemma SepWordCanonical(s: string, p: nat, sep: string, word: string)
    requires p + 1 + |sep| + 1 + |word| == |s|
    requires |sep| > 0 && !IsSpace(sep[0]) && IsWord(word)
    requires s[p..] == " " + sep + " " + word
    ensures SepWordAt(s, p, sep) == Some(word)
  {
    var t := " " + sep + " " + word;
    var b := p + 2 + |sep|;
    assert s[p] == t[0] && s[p + 1] == t[1];
    assert s[p + 1..b - 1] == t[1..1 + |sep|] == sep;
    assert s[b - 1] == t[1 + |sep|] == ' ';
    assert s[b..] == t[2 + |sep|..] == word;
    SepWordLayout(s, p, sep, word);
  }

  /** The same, for a text laid out position by position. */
  lemma SepWordLayout(s: string, p: nat, sep: string, word: string)
    requires p + 2 + |sep| + |word| == |s|
    requires |sep| > 0 && !IsSpace(sep[0]) && IsWord(word)
    requires s[p] == ' ' && s[p + 1..p + 1 + |sep|] == sep
    requires s[p + 1 + |sep|] == ' ' && s[p + 2 + |sep|..] == word
    ensures SepWordAt(s, p, sep) == Some(word)
  {
    var a := p + 1;
    var b := a + |sep| + 1;
    assert s[a] == sep[0];
    RunUntil(Space, s, p, a);
    assert s[b] == word[0];
    WordCharIsNoSpace(word[0]);
    RunUntil(Space, s, a + |sep|, b);
    assert forall k :: b <= k < |s| ==> s[k] == word[k - b];
    RunUntil(Word, s, b, |s|);
    assert s[b..|s|] == word;
  }

  /** `kw "item"` followed by a tail matches at `i` and captures the item,
      when the item holds no quote and no line terminator. */
  lemma QuotedAtReaches(s: string, i: nat, kw: string, item: string, sep: Option<string>, w: string)
    requires LitAt(s, i, kw) && |item| > 0 && NoLineTerminator(item) && '"' !in item
    requires i + |kw| + 2 + |item| < |s|
    requires s[i + |kw|] == ' ' && s[i + |kw| + 1] == '"'
    requires s[i + |kw| + 2..i + |kw| + 2 + |item|] == item
    requires s[i + |kw| + 2 + |item|] == '"' && TailAt(s, i + |kw| + 3 + |item|, sep) == Some(w)
    ensures QuotedAt(s, i, kw, sep) == Some(Captures(item, w))
  {
    var q := i + |kw| + 1;
    var end := i + |kw| + 2 + |item|;
    assert s[q + 1..end] == item;
    RunUntil(Space, s, i + |kw|, q);
    ItemStart(s, q + 1, end);
    LazyQuotedReaches(s, q + 1, q + 2, end, sep);
    assert LazyQuoted(s, q + 1, q + 2, sep) == Some(Captures(item, w));
    QuotedAtOpens(s, i, kw, sep);
  }

  /** Once `kw` and the white space after it are followed by a quote and a
      character that is not a line terminator, the lazy item decides. */
  lemma QuotedAtOpens(s: string, i: nat, kw: string, sep: Option<string>)
    requires LitAt(s, i, kw)
    requires Run(Space, s, i + |kw|) == i + |kw| + 1 < |s| - 1
    requires s[i + |kw| + 1] == '"' && !IsLineTerminator(s[i + |kw| + 2])
    requires NoLineTerminator(s[i + |kw| + 2..i + |kw| + 3])
    ensures QuotedAt(s, i, kw, sep) == LazyQuoted(s, i + |kw| + 2, i + |kw| + 3, sep)
  {
  }

  /** The first character of an item is consumed by `.`, and the rest of the
      item stays free of quotes and line terminators. */
  lemma ItemStart(s: string, a: nat, end: nat)
    requires a < end <= |s|
    requires NoLineTerminator(s[a..end]) && '"' !in s[a..end]
    ensures !IsLineTerminator(s[a]) && NoLineTerminator(s[a..a + 1])
    ensures NoLineTerminator(s[a + 1..end]) && '"' !in s[a + 1..end]
  {
    var item := s[a..end];
    assert item[0] == s[a] && s[a + 1..end] == item[1..];
    assert s[a..a + 1] == [s[a]];
  }

  /** A match at the very start is the leftmost one. */
  lemma MatchAtStart(p: Pattern, s: string, c: Captures)
    requires MatchAt(p, s, 0) == Some(c)
    ensures Exec(p, s) == Some(c)
  {
  }

  /** The canonical spelling `kw "item" sep word` parses back to its parts. */
  lemma QuotedThenWordRoundTrip(kw: string, item: string, sep: string, word: string)
    requires |sep| > 0 && !IsSpace(sep[0]) && IsWord(word)
    requires |item| > 0 && NoLineTerminator(item) && '"' !in item
    ensures Exec(QuotedThenWord(kw, sep), kw + " \"" + item + "\" " + sep + " " + word)
            == Some(Captures(item, word))
  {
    var tail := " " + sep + " " + word;
    var head := kw + " \"";
    var s := head + item + "\"" + tail;
    assert s == kw + " \"" + item + "\" " + sep + " " + word;
    var end := |kw| + 2 + |item|;
    assert s[..|kw|] == kw;
    assert s[|kw|] == head[|kw|] == ' ';
    assert s[|kw| + 1] == head[|kw| + 1] == '"';
    assert s[|kw| + 2..end] == item;
    assert s[end] == '"';
    assert s[end + 1..] == tail;
    QuotedThenWordLayout(s, kw, item, sep, word);
    MatchAtStart(QuotedThenWord(kw, sep), s, Captures(item, word));
  }

  /** The same, for a text laid out as `kw "item" sep word` position by
      position. */
  lemma QuotedThenWordLayout(s: string, kw: string, item: string, sep: string, word: string)
    requires |sep| > 0 && !IsSpace(sep[0]) && IsWord(word)
    requires |item| > 0 && NoLineTerminator(item) && '"' !in item
    requires |kw| + |item| + 3 + |sep| + 2 + |word| == |s|
    requires s[..|kw|] == kw && s[|kw|] == ' ' && s[|kw| + 1] == '"'
    requires s[|kw| + 2..|kw| + 2 + |item|] == item && s[|kw| + 2 + |item|] == '"'
    requires s[|kw| + 3 + |item|..] == " " + sep + " " + word
    ensures QuotedAt(s, 0, kw, Some(sep)) == Some(Captures(item, word))
  {
    var end := |kw| + 2 + |item|;
    SepWordCanonical(s, end + 1, sep, word);
    QuotedAtReaches(s, 0, kw, item, Some(sep), word);
  }

  /** The canonical spelling `kw digits sep word` parses back to its parts. */
  lemma DigitsThenWordRoundTrip(kw: string, digits: string, sep: string, word: string)
    requires |digits| > 0 && AllDigits(digits)
    requires |sep| > 0 && !IsSpace(sep[0]) && IsWord(word)
    ensures Exec(DigitsThenWord(kw, sep), kw + " " + digits + " " + sep + " " + word)
            == Some(Captures(digits, word))
  {
    var tail := " " + sep + " " + word;
    var s := kw + " " + digits + tail;
    assert s == kw + " " + digits + " " + sep + " " + word;
    var d := |kw| + 1 + |digits|;
    assert s[..|kw|] == kw && s[|kw|] == ' ';
    assert s[|kw| + 1..d] == digits;
    assert s[d..] == tail;
    DigitsAtLayout(s, kw, digits, sep, word);
    MatchAtStart(DigitsThenWord(kw, sep), s, Captures(digits, word));
  }

  /** The same, for a text laid out as `kw digits sep word` position by
      position. */
  lemma DigitsAtLayout(s: string, kw: string, digits: string, sep: string, word: string)
    requires |digits| > 0 && AllDigits(digits)
    requires |sep| > 0 && !IsSpace(sep[0]) && IsWord(word)
    requires |kw| + 1 + |digits| + 2 + |sep| + |word| == |s|
    requires s[..|kw|] == kw && s[|kw|] == ' '
    requires s[|kw| + 1..|kw| + 1 + |digits|] == digits
    requires s[|kw| + 1 + |digits|..] == " " + sep + " " + word
    ensures DigitsAt(s, 0, kw, sep) == Some(Captures(digits, word))
  {
    var a := |kw| + 1;
    var d := a + |digits|;
    assert s[a] == digits[0];
    RunUntil(Space, s, |kw|, a);
    assert forall k :: a <= k < d ==> s[k] == digits[k - a];
    assert s[d] == ' ';
    RunUntil(Digit, s, a, d);
    SepWordCanonical(s, d, sep, word);
  }

  /** `kw word` parses back to the word. */
  lemma QuotedOrWordRoundTripWord(kw: string, word: string)
    requires IsWord(word)
    ensures Exec(QuotedOrWord(kw), kw + " " + word) == Some(Captures(word, ""))
  {
    var s := kw + " " + word;
    var a := |kw| + 1;
    assert s[..|kw|] == kw;
    assert s[|kw|] == ' ' && s[a] == word[0];
    WordCharIsNoSpace(word[0]);
    RunUntil(Space, s, |kw|, a);
    assert QuotedAt(s, 0, kw, None).None?;
    assert forall k :: a <= k < |s| ==> s[k] == word[k - a];
    RunUntil(Word, s, a, |s|);
    assert s[a..|s|] == word;
    assert WordAt(s, 0, kw) == Some(Captures(word, ""));
    MatchAtStart(QuotedOrWord(kw), s, Captures(word, ""));
  }

  /** `kw "name"` parses back to the name. */
  lemma QuotedOrWordRoundTripQuoted(kw: string, name: string)
    requires |name| > 0 && NoLineTerminator(name) && '"' !in name
    ensures Exec(QuotedOrWord(kw), kw + " \"" + name + "\"") == Some(Captures(name, ""))
  {
    var s := kw + " \"" + name + "\"";
    var end := |kw| + 2 + |name|;
    assert s[..|kw|] == kw;
    assert s[|kw|] == ' ' && s[|kw| + 1] == '"';
    assert s[|kw| + 2..end] == name;
    assert s[end] == '"';
    QuotedAtReaches(s, 0, kw, name, None, "");
    MatchAtStart(QuotedOrWord(kw), s, Captures(name, ""));
  }
}

=== FILE: terminal.dfy ===
/**
 The terminal session (`src/components/Terminal.jsx`): the secret-word gate,
 the older inline dispatcher behind it, recording of submitted commands, and
 arrow-key navigation through them. This dispatcher differs from the module
 one in `DataManager`: showing a category by its exact name is tried before
 `add` and `remove`, and removing by name compares entries literally.
 */
module Terminal {
  import opened Wrappers
  import opened Text
  import opened Dict
  import opened Regex
  import opened TerminalUtils
  import opened Output
  import opened DataManager

  /** The component's state: whether the secret word was given, the help
      panel flag, the transcript, the category store, the submitted commands,
      the navigation position in them (-1 when not navigating) and the text in
      the input box. */
  datatype Session = Session(
    auth: bool, showHelp: bool, transcript: seq<Line>, data: Store,
    history: seq<string>, historyIndex: int, input: string)

  /** What every reachable session satisfies: a well-formed store and a
      navigation position within `[-1, |history| - 1]`. */
  ghost predicate Inv(s: Session) {
    Valid(s.data) && -1 <= s.historyIndex < |s.history|
  }

  const Secret := "zoro"

  const LinksRemoveUsage := "Invalid remove syntax. Use: remove \"item\" from links OR remove 1 from links"
  const Welcome := "Access granted. Welcome, master."
  const HelpHint := "Type 'help' to see available commands."
  const Rejection := "This is not yours, leave it at once!"
  const HelpHidden := "Help panel hidden"
  const HelpShown := "Help panel shown"
  const UnknownHint := ". Type 'help' for options."

  const Banner := [Plain("Welcome to MyCMD!"),
                   Plain("Session terminated. Enter the secret word to access the terminal...")]

  // ---------------------------------------------------------------------
  // handleCommand

  /** The branches of `handleCommand` after the gate, in the order it tries
      them. */
  datatype Route =
    | HelpRoute | ClearRoute | DebugRoute | LogoutRoute | ListRoute
    | AddCatRoute | RemoveCatRoute | DisplayRoute | AddRoute | RemoveRoute | UnknownRoute
  {
    /** The branches that work on the store. */
    predicate OnStore() {
      this in {ListRoute, AddCatRoute, RemoveCatRoute, DisplayRoute, AddRoute, RemoveRoute}
    }
  }

  /** The commands matched exactly before any prefix test. */
  predicate IsFixedWord(command: string) {
    command in {"help", "clear", "debug", "logout", "categories", "cats"}
  }

  function RouteOf(command: string, data: Store): (k: Route)
    ensures k == HelpRoute <==> command == "help"
    ensures k == ClearRoute <==> command == "clear"
    ensures k == DebugRoute <==> command == "debug"
    ensures k == LogoutRoute <==> command == "logout"
    ensures k == ListRoute <==> command == "categories" || command == "cats"
    ensures k == AddCatRoute <==> StartsWith(command, "addcat")
    ensures k == RemoveCatRoute <==> StartsWith(command, "removecat")
    ensures k == DisplayRoute <==>
              && command in data.keys && !IsFixedWord(command)
              && !StartsWith(command, "addcat") && !StartsWith(command, "removecat")
    ensures k == AddRoute <==>
              StartsWith(command, "add") && !StartsWith(command, "addcat") && command !in data.keys
    ensures k == RemoveRoute <==>
              StartsWith(command, "remove") && !StartsWith(command, "removecat") && command !in data.keys
    ensures k == UnknownRoute <==>
              && !IsFixedWord(command) && command !in data.keys
              && !StartsWith(command, "add") && !StartsWith(command, "remove")
  {
    assert StartsWith(command, "addcat") ==> command[..3] == "addcat"[..3] && command[0] == 'a';
    assert StartsWith(command, "removecat") ==> command[..6] == "removecat"[..6] && command[0] == 'r';
    assert StartsWith(command, "add") ==> command[0] == "add"[0];
    assert StartsWith(command, "remove") ==> command[0] == "remove"[0];
    assert IsFixedWord(command) ==> command[0] in {'h', 'c', 'd', 'l'};
    if command == "help" then HelpRoute
    else if command == "clear" then ClearRoute
    else if command == "debug" then DebugRoute
    else if command == "logout" then LogoutRoute
    else if command == "categories" || command == "cats" then ListRoute
    else if StartsWith(command, "addcat") then AddCatRoute
    else if StartsWith(command, "removecat") then RemoveCatRoute
    else if command in data.keys then DisplayRoute
    else if StartsWith(command, "add") then AddRoute
    else if StartsWith(command, "remove") then RemoveRoute
    else UnknownRoute
  }

  /** `categories` / `cats` in this dispatcher: a header line and one line
      per category. */
  function CategoryList(command: string, data: Store): (r: seq<Line>)
    ensures |r| >= 2 && r[0] == Echo(command)
    ensures data.keys == [] ==> r == [Echo(command), Plain("No categories found.")]
    ensures data.keys != [] ==>
              && r[1] == Plain("Available categories:") && |r| == |data.keys| + 2
              && forall i :: 0 <= i < |data.keys| ==>
                   r[i + 2] == Plain(CategoryLine(i + 1, data.keys[i], |Items(data, data.keys[i])|))
  {
    if data.keys == [] then [Echo(command), Plain("No categories found.")]
    else
      [Echo(command), Plain("Available categories:")]
      + seq(|data.keys|, i requires 0 <= i < |data.keys| =>
              Plain(CategoryLine(i + 1, data.keys[i], |Items(data, data.keys[i])|)))
  }

  /** `renderItems`: numbered rows, each link-looking item carrying its
      normalized target, or a placeholder for an empty category. */
  function RenderItems(items: seq<string>, c: string): (r: seq<Line>)
    ensures items == [] ==> r == [Plain("No " + c + " stored yet.")]
    ensures items != [] ==>
              && |r| == |items|
              && forall i :: 0 <= i < |items| ==>
                   && r[i].Entry? && r[i].pos == i + 1 && r[i].text == items[i]
                   && (r[i].href.Some? <==> IsURL(items[i]))
                   && (r[i].href.Some? ==> r[i].href.value == NormalizeURL(items[i]))
  {
    if items == [] then [Plain("No " + c + " stored yet.")]
    else
      seq(|items|, i requires 0 <= i < |items| =>
            Entry(i + 1, items[i], if IsURL(items[i]) then Some(NormalizeURL(items[i])) else None))
  }

  /** One more item adds one more numbered row at the end. */
  lemma RenderItemsAppend(items: seq<string>, x: string, c: string)
    requires items != []
    ensures RenderItems(items + [x], c)
            == RenderItems(items, c) + [Entry(|items| + 1, x, if IsURL(x) then Some(NormalizeURL(x)) else None)]
  {
    var r := RenderItems(items + [x], c);
    assert r[..|items|] == RenderItems(items, c);
    assert r == r[..|items|] + [r[|items|]];
  }

  /** `remove <id> from c` in this dispatcher. */
  function RemoveByIdHere(command: string, id: nat, c: string, data: Store): (r: Reply)
    requires Valid(data)
    ensures r.Handled? && Valid(r.data) && |r.out| == 2 && r.out[0] == Echo(command)
    ensures r.data.keys == data.keys
    ensures c in data.vals && 1 <= id <= |data.vals[c]| ==>
              r.data.vals == data.vals[c := RemoveAt(data.vals[c], id - 1)]
              && r.out[1] == Plain("Removed " + Quoted(data.vals[c][id - 1]) + " from " + c)
    ensures !(c in data.vals && 1 <= id <= |data.vals[c]|) ==> r.data == data
    ensures c in data.vals && data.vals[c] != [] && !(1 <= id <= |data.vals[c]|) ==>
              r.out[1] == Plain("Invalid ID. " + c + " has " + NatToString(|data.vals[c]|)
                                + " items (1-" + NatToString(|data.vals[c]|) + ")")
    ensures (c !in data.vals || data.vals[c] == []) ==> r.out[1] == Plain("No items in " + c + " to remove")
  {
    if c in data.vals && |data.vals[c]| > 0 then
      var items := data.vals[c];
      if 1 <= id <= |items| then
        Handled(Put(data, c, RemoveAt(items, id - 1)),
                [Echo(command), Plain("Removed " + Quoted(items[id - 1]) + " from " + c)])
      else
        Handled(data, [Echo(command), Plain("Invalid ID. " + c + " has " + NatToString(|items|)
                                            + " items (1-" + NatToString(|items|) + ")")])
    else
      Handled(data, [Echo(command), Plain("No items in " + c + " to remove")])
  }

  /** The entry `remove "item" from c` deletes in this dispatcher: the item as
      typed, except that in the category `links` its normalized form is used
      when that form is stored. */
  function RemovalTarget(item: string, c: string, items: seq<string>): (r: string)
    ensures r == item || (c == "links" && r == NormalizeURL(item) && r in items)
    ensures c != "links" ==> r == item
    ensures c == "links" && NormalizeURL(item) in items ==> r == NormalizeURL(item)
  {
    if c == "links" && NormalizeURL(item) in items then NormalizeURL(item) else item
  }

  /** `remove "item" from c` in this dispatcher: every entry literally equal
      to the target is deleted. */
  function RemoveByNameHere(command: string, item: string, c: string, data: Store): (r: Reply)
    requires Valid(data)
    ensures r.Handled? && Valid(r.data) && |r.out| == 2 && r.out[0] == Echo(command)
    ensures r.data.keys == data.keys
    ensures c !in data.vals ==> r.data == data && r.out[1] == Plain("Unknown category: " + c)
    ensures c in data.vals ==>
              var target := RemovalTarget(item, c, data.vals[c]);
              && (forall e :: e in r.data.vals[c] <==> e in data.vals[c] && e != target)
              && r.data.vals == data.vals[c := Filter(data.vals[c], x => x != target)]
              && (target in data.vals[c] ==>
                    r.out[1] == Plain("Removed " + Quoted(target) + " from " + c))
              && (target !in data.vals[c] ==>
                    r.data == data && r.out[1] == Plain("Item " + Quoted(item) + " not found in " + c))
  {
    if c in data.vals then
      var items := data.vals[c];
      var target := RemovalTarget(item, c, items);
      var kept := Filter(items, x => x != target);
      if |kept| < |items| then
        Handled(Put(data, c, kept), [Echo(command), Plain("Removed " + Quoted(target) + " from " + c)])
      else
        Handled(data, [Echo(command), Plain("Item " + Quoted(item) + " not found in " + c)])
    else
      Handled(data, [Echo(command), Plain("Unknown category: " + c)])
  }

  /** The `remove` branch of this dispatcher: the ID form first, then the
      name form. */
  function RemoveHere(command: string, data: Store): (r: Reply)
    requires Valid(data)
    ensures r.Handled? && Valid(r.data) && |r.out| == 2 && r.out[0] == Echo(command)
    ensures r.data.keys == data.keys
    ensures Exec(RemoveIdPattern, command).Some? ==>
              var m := Exec(RemoveIdPattern, command).value;
              r == RemoveByIdHere(command, DigitsValue(m.first), m.second, data)
    ensures Exec(RemoveIdPattern, command).None? && Exec(RemoveNamePattern, command).Some? ==>
              var m := Exec(RemoveNamePattern, command).value;
              r == RemoveByNameHere(command, m.first, m.second, data)
    ensures Exec(RemoveIdPattern, command).None? && Exec(RemoveNamePattern, command).None? ==>
              r.data == data
              && r.out[1] == Plain(LinksRemoveUsage)
  {
    var byId := Exec(RemoveIdPattern, command);
    if byId.Some? then
      RemoveByIdHere(command, DigitsValue(byId.value.first), byId.value.second, data)
    else
      var byName := Exec(RemoveNamePattern, command);
      if byName.Some? then
        RemoveByNameHere(command, byName.value.first, byName.value.second, data)
      else
        Handled(data, [Echo(command), Plain(LinksRemoveUsage)])
  }

  /** The store change and the lines of a branch that works on the store. */
  function DataStep(k: Route, command: string, data: Store): (r: Reply)
    requires Valid(data)
    requires k.OnStore()
    requires k == DisplayRoute ==> command in data.vals
    ensures r.Handled? && Valid(r.data) && |r.out| >= 2 && r.out[0] == Echo(command)
    ensures k == ListRoute ==> r == Handled(data, CategoryList(command, data))
    ensures k == AddCatRoute ==> r == CreateCategory(command, data)
    ensures k == RemoveCatRoute ==> r == DeleteCategory(command, data)
    ensures k == DisplayRoute ==>
              r == Handled(data, [Echo(command), Plain("Stored " + command + ":")]
                                 + RenderItems(data.vals[command], command))
    ensures k == AddRoute ==> r == AddItem(command, data)
    ensures k == RemoveRoute ==> r == RemoveHere(command, data)
  {
    match k
    case ListRoute => Handled(data, CategoryList(command, data))
    case AddCatRoute => CreateCategory(command, data)
    case RemoveCatRoute => DeleteCategory(command, data)
    case DisplayRoute =>
      Handled(data, [Echo(command), Plain("Stored " + command + ":")] + RenderItems(data.vals[command], command))
    case AddRoute => AddItem(command, data)
    case RemoveRoute => RemoveHere(command, data)
  }

  /** The gate: before the secret word, only the secret word does anything,
      and nothing but the flags and the transcript can change. */
  function Gate(s: Session, command: string): (r: Session)
    requires !s.auth
    ensures r.data == s.data && r.history == s.history
    ensures r.historyIndex == s.historyIndex && r.input == s.input
    ensures command == Secret ==>
              && r.auth && r.showHelp
              && r.transcript == s.transcript + [Plain(Welcome),
                                                 Plain(HelpHint)]
    ensures command != Secret ==>
              r == s.(transcript := s.transcript + [Plain(Rejection)])
  {
    if command == Secret then
      s.(auth := true, showHelp := true,
         transcript := s.transcript + [Plain(Welcome),
                                       Plain(HelpHint)])
    else
      s.(transcript := s.transcript + [Plain(Rejection)])
  }

  /** The dispatcher behind the gate, for an already trimmed command. Every
      branch but `clear` and `logout` appends the echo of the command and
      then its result lines; only the store branches change the store. */
  function Dispatch(s: Session, command: string): (r: Session)
    requires s.auth && Valid(s.data)
    ensures Valid(r.data)
    ensures r.history == s.history && r.historyIndex == s.historyIndex && r.input == s.input
    ensures RouteOf(command, s.data) !in {ClearRoute, LogoutRoute} ==>
              && r.auth && r.showHelp == (s.showHelp != (command == "help"))
              && |r.transcript| >= |s.transcript| + 2
              && r.transcript[..|s.transcript|] == s.transcript
              && r.transcript[|s.transcript|] == Echo(command)
    ensures RouteOf(command, s.data) in {HelpRoute, ClearRoute, DebugRoute, LogoutRoute, UnknownRoute} ==>
              r.data == s.data
    ensures command == "help" ==>
              r.transcript == s.transcript
                              + [Echo(command), Plain(if s.showHelp then HelpHidden else HelpShown)]
    ensures command == "clear" ==> r == s.(transcript := [])
    ensures command == "debug" ==> r == s.(transcript := s.transcript + [Echo(command), DebugDump])
    ensures command == "logout" ==> r == s.(auth := false, showHelp := false, transcript := Banner)
    ensures RouteOf(command, s.data) == UnknownRoute ==>
              r == s.(transcript := s.transcript
                        + [Echo(command), Plain("Unknown command: " + command + UnknownHint)])
    ensures RouteOf(command, s.data).OnStore() ==>
              var step := DataStep(RouteOf(command, s.data), command, s.data);
              r == s.(data := step.data, transcript := s.transcript + step.out)
  {
    var k := RouteOf(command, s.data);
    match k
    case HelpRoute =>
      s.(showHelp := !s.showHelp,
         transcript := s.transcript
                       + [Echo(command), Plain(if s.showHelp then HelpHidden else HelpShown)])
    case ClearRoute => s.(transcript := [])
    case DebugRoute => s.(transcript := s.transcript + [Echo(command), DebugDump])
    case LogoutRoute => s.(auth := false, showHelp := false, transcript := Banner)
    case UnknownRoute =>
      s.(transcript := s.transcript
           + [Echo(command), Plain("Unknown command: " + command + UnknownHint)])
    case _ =>
      var step := DataStep(k, command, s.data);
      assert (s.transcript + step.out)[..|s.transcript|] == s.transcript;
      s.(data := step.data, transcript := s.transcript + step.out)
  }

  /** `handleCommand`: the input is trimmed, then gated, then dispatched. */
  function HandleCommand(s: Session, cmd: string): (r: Session)
    requires Valid(s.data)
    ensures Valid(r.data)
    ensures r.history == s.history && r.historyIndex == s.historyIndex && r.input == s.input
    ensures !s.auth ==> r == Gate(s, Trim(cmd))
    ensures s.auth ==> r == Dispatch(s, Trim(cmd))
  {
    if !s.auth then Gate(s, Trim(cmd)) else Dispatch(s, Trim(cmd))
  }

  // ---------------------------------------------------------------------
  // handleSubmit and handleKeyDown

  /** The history after submitting `t`: appended only when the session was
      already open, `t` is not the secret word in any letter case, and `t`
      differs from the last entry. */
  function Record(history: seq<string>, t: string, auth: bool): (r: seq<string>)
    ensures r == history || r == history + [t]
    ensures r == history + [t] <==> auth && Lower(t) != Secret && (history == [] || history[|history| - 1] != t)
  {
    if auth && Lower(t) != Secret && (history == [] || history[|history| - 1] != t) then history + [t]
    else history
  }

  /** `handleSubmit`: the text in the input box is read; blank input is
      ignored; otherwise the trimmed input is recorded, navigation is reset,
      the command runs with the state from before the submission, and the
      input box is emptied. */
  function HandleSubmit(s: Session): (r: Session)
    requires Valid(s.data)
    ensures Valid(r.data)
    ensures Trim(s.input) == "" ==> r == s
    ensures Trim(s.input) != "" ==>
              && r.input == "" && r.historyIndex == -1
              && r.history == Record(s.history, Trim(s.input), s.auth)
              && r.auth == HandleCommand(s, Trim(s.input)).auth
              && r.showHelp == HandleCommand(s, Trim(s.input)).showHelp
              && r.transcript == HandleCommand(s, Trim(s.input)).transcript
              && r.data == HandleCommand(s, Trim(s.input)).data
  {
    var t := Trim(s.input);
    if t == "" then s
    else
      var ran := HandleCommand(s, t);
      ran.(history := Record(s.history, t, s.auth), historyIndex := -1, input := "")
  }

  datatype Key = ArrowUp | ArrowDown | OtherKey

  /** `handleKeyDown`: only while the session is open. Up moves one entry
      further back while there is one; down moves forward, and from the most
      recent entry back to an empty input. The input shows the entry
      `historyIndex` places before the end. */
  function HandleKeyDown(s: Session, key: Key): (r: Session)
    requires Inv(s)
    ensures Inv(r)
    ensures r.auth == s.auth && r.showHelp == s.showHelp && r.transcript == s.transcript
    ensures r.data == s.data && r.history == s.history
    ensures !s.auth || key == OtherKey ==> r == s
    ensures s.auth && key == ArrowUp ==>
              if s.historyIndex < |s.history| - 1
              then r.historyIndex == s.historyIndex + 1 && r.input == s.history[|s.history| - 1 - r.historyIndex]
              else r == s
    ensures s.auth && key == ArrowDown ==>
              if s.historyIndex > 0
              then r.historyIndex == s.historyIndex - 1 && r.input == s.history[|s.history| - 1 - r.historyIndex]
              else if s.historyIndex == 0 then r.historyIndex == -1 && r.input == ""
              else r == s
  {
    if !s.auth then s
    else
      match key
      case ArrowUp =>
        if |s.history| > 0 && s.historyIndex < |s.history| - 1 then
          var i := s.historyIndex + 1;
          s.(historyIndex := i, input := s.history[|s.history| - 1 - i])
        else s
      case ArrowDown =>
        if s.historyIndex > 0 then
          var i := s.historyIndex - 1;
          s.(historyIndex := i, input := s.history[|s.history| - 1 - i])
        else if s.historyIndex == 0 then s.(historyIndex := -1, input := "")
        else s
      case OtherKey => s
  }

  // ---------------------------------------------------------------------
  // properties

  /** Submitting keeps the session invariant. */
  lemma SubmitKeepsInv(s: Session)
    requires Inv(s)
    ensures Inv(HandleSubmit(s))
  {
  }

  /** A history with no entry repeated back to back, none blank or padded, and
      none that is the secret word. */
  ghost predicate CleanHistory(h: seq<string>) {
    && (forall i :: 0 <= i < |h| ==> h[i] != "" && IsTrimmed(h[i]) && Lower(h[i]) != Secret)
    && (forall i :: 0 <= i < |h| - 1 ==> h[i] != h[i + 1])
  }

  /** Recording a trimmed, non-blank command keeps a clean history clean. */
  lemma RecordKeepsClean(h: seq<string>, t: string, auth: bool)
    requires CleanHistory(h) && t != "" && IsTrimmed(t)
    ensures CleanHistory(Record(h, t, auth))
  {
  }

  /** Submitting keeps a clean history clean. */
  lemma SubmitKeepsHistoryClean(s: Session)
    requires Valid(s.data) && CleanHistory(s.history)
    ensures CleanHistory(HandleSubmit(s).history)
  {
    if Trim(s.input) != "" {
      RecordKeepsClean(s.history, Trim(s.input), s.auth);
    }
  }

  /** The secret word is never recorded, typed in any letter case. */
  lemma SecretNeverRecorded(s: Session)
    requires Valid(s.data) && Lower(Trim(s.input)) == Secret
    ensures HandleSubmit(s).history == s.history
  {
  }

  /** Logging out closes the session and resets the transcript to the banner
      but keeps the store and the history. */
  lemma LogoutKeepsData(s: Session)
    requires Valid(s.data) && s.auth && Trim(s.input) == "logout"
    ensures var r := HandleSubmit(s);
            && !r.auth && !r.showHelp && r.transcript == Banner
            && r.data == s.data && r.history == Record(s.history, "logout", true)
  {
  }

  /** Up then down returns to the same place in the history, showing the same
      entry (or the empty input, when starting from outside the history). */
  lemma UpThenDown(s: Session)
    requires Inv(s) && s.auth && s.historyIndex < |s.history| - 1
    ensures var r := HandleKeyDown(HandleKeyDown(s, ArrowUp), ArrowDown);
            && r.historyIndex == s.historyIndex
            && r.input == (if s.historyIndex >= 0 then s.history[|s.history| - 1 - s.historyIndex] else "")
  {
  }

  /** Before the secret word the store, the history and the session stay
      closed to every other command, whatever its case or padding. */
  lemma GateHoldsFirm(s: Session, cmd: string)
    requires Valid(s.data) && !s.auth && Trim(cmd) != Secret
    ensures HandleCommand(s, cmd).data == s.data
    ensures !HandleCommand(s, cmd).auth
    ensures HandleCommand(s, cmd).transcript == s.transcript + [Plain(Rejection)]
  {
  }

  /** A category whose name begins with `add` is shown by this dispatcher when
      typed exactly, where the module dispatcher would treat it as a
      malformed `add`. */
  lemma DisplayBeforeAdd(data: Store)
    requires Valid(data) && "address" in data.keys
    ensures RouteOf("address", data) == DisplayRoute
    ensures Classify("address") == AddCmd
  {
    assert "address"[..3] == "add";
    assert "address"[..6][3] != "addcat"[3];
    assert "address"[0] != "remove"[0];
  }

  /** Removing a bare domain by name: the module dispatcher matches the stored
      normalized link, this one compares literally and finds nothing outside
      the `links` category. */
  lemma RemoveByNameIsLiteralHere()
    ensures var data := Dict(["notes"], map["notes" := ["https://a.com"]]);
            && Valid(data)
            && RemoveByName("c", "a.com", "notes", data).data.vals["notes"] == []
            && RemoveByNameHere("c", "a.com", "notes", data).data == data
  {
    var data := Dict(["notes"], map["notes" := ["https://a.com"]]);
    assert Valid(data);
    BareDomainCanon();
    var r := RemoveByName("c", "a.com", "notes", data);
    assert "https://a.com" !in r.data.vals["notes"];
    assert r.data.vals["notes"] == [];
  }

  /** In the `links` category the typed bare domain does find its stored
      normalized link. */
  lemma LinksRemovalNormalizes()
    ensures var data := Dict(["links"], map["links" := ["https://a.com"]]);
            && Valid(data)
            && RemoveByNameHere("c", "a.com", "links", data).data.vals["links"] == []
  {
    var data := Dict(["links"], map["links" := ["https://a.com"]]);
    assert Valid(data);
    BareDomainCanon();
    assert RemovalTarget("a.com", "links", data.vals["links"]) == "https://a.com";
    var r := RemoveByNameHere("c", "a.com", "links", data);
    assert "https://a.com" !in r.data.vals["links"];
  }

  /** Outside `links`, removing by name an item that occurs exactly once
      cuts out that entry and keeps the others in order. */
  lemma RemoveByNameHereCutsOne(command: string, c: string, data: Store,
                                a: seq<string>, x: string, b: seq<string>)
    requires Valid(data) && c in data.vals && c != "links" && data.vals[c] == a + [x] + b
    requires x !in a && x !in b
    ensures var r := RemoveByNameHere(command, x, c, data);
            && r.data.vals[c] == a + b && r.data.keys == data.keys
            && r.out[1] == Plain("Removed " + Quoted(x) + " from " + c)
  {
    FilterCutsOne(a, x, b, e => e != x);
    assert x in data.vals[c];
  }

  /** Both dispatchers make the same store change for `remove <id> from c`;
      only their messages differ. */
  lemma RemoveByIdAgrees(command: string, id: nat, c: string, data: Store)
    requires Valid(data)
    ensures RemoveByIdHere(command, id, c, data).data == RemoveById(command, id, c, data).data
  {
  }

  /** A bare domain and the same link with a protocol share one comparison
      form. */
  lemma BareDomainCanon()
    ensures Canon("a.com") == "https://a.com" == Canon("https://a.com")
  {
    BareDomainGetsProtocol();
    LinkKeepsProtocol("a.com");
    assert Https + "a.com" == "https://a.com";
  }
}

=== FILE: terminal_utils.dfy ===
/**
 URL handling, duplicate checking and autocompletion for the terminal
 (`src/utils/terminalUtils.js`).
 */
module TerminalUtils {
  import opened Wrappers
  import opened Text
  import opened Dict

  const Https := "https://"

  /** `/^https?:\/\//i.test(s)` */
  predicate HasProtocol(s: string) {
    StartsWith(Lower(s), "http://") || StartsWith(Lower(s), "https://")
  }

  /** Prefixes `https://` unless the text already starts with a protocol. */
  function NormalizeURL(s: string): (r: string)
    ensures HasProtocol(r)
    ensures HasProtocol(s) ==> r == s
    ensures !HasProtocol(s) ==> r == Https + s
  {
    if !HasProtocol(s) then
      LowerAppend(Https, s);
      assert Lower(Https + s)[..8] == Lower(Https);
      Https + s
    else s
  }

  /** `\.[a-z]{2,}` under the `i` flag: a dot and at least two ASCII letters. */
  predicate IsExtension(t: string) {
    |t| >= 3 && t[0] == '.' && AllLetters(t[1..])
  }

  /** The language of `\.[a-z]{2,}(\.[a-z]{2,})?` under the `i` flag. */
  predicate IsExtensionChain(t: string) {
    || IsExtension(t)
    || exists j :: 0 < j < |t| && IsExtension(t[..j]) && IsExtension(t[j..])
  }

  /** `/\.[a-z]{2,}(\.[a-z]{2,})?$/i.test(s)`: some suffix of `s` is in the
      language, the `$` anchoring it at the end. */
  predicate HasExtension(s: string) {
    exists i :: 0 <= i < |s| && IsExtensionChain(s[i..])
  }

  /** The link heuristic: a protocol prefix or a trailing domain extension. */
  predicate IsURL(s: string) {
    HasProtocol(s) || HasExtension(s)
  }

  /** The form an entry is compared under: normalized when it looks like a link. */
  function Canon(s: string): (r: string)
    ensures IsURL(s) ==> r == NormalizeURL(s)
    ensures !IsURL(s) ==> r == s
  {
    if IsURL(s) then NormalizeURL(s) else s
  }

  /** The position of the last `.` in `s`, independent of any pattern. */
  function LastDot(s: string): (r: Option<nat>)
    decreases |s|
    ensures r.Some? ==> r.value < |s| && s[r.value] == '.'
                        && forall k :: r.value < k < |s| ==> s[k] != '.'
    ensures r.None? ==> forall k :: 0 <= k < |s| ==> s[k] != '.'
  {
    if s == [] then None
    else if s[|s| - 1] == '.' then Some(|s| - 1)
    else LastDot(s[..|s| - 1])
  }

  /** The text after the last dot is at least two ASCII letters. */
  predicate EndsInLetterExtension(s: string) {
    var d := LastDot(s);
    d.Some? && |s| - d.value - 1 >= 2 && AllLetters(s[d.value + 1..])
  }

  /** A trailing extension chain ends in a single extension. */
  lemma ExtensionChainEnds(s: string, i: nat) returns (k: nat)
    requires i < |s| && IsExtensionChain(s[i..])
    ensures i <= k < |s| && IsExtension(s[k..])
  {
    k := i;
    if !IsExtension(s[i..]) {
      var j :| 0 < j < |s[i..]| && IsExtension(s[i..][..j]) && IsExtension(s[i..][j..]);
      assert s[i..][j..] == s[i + j..];
      k := i + j;
    }
  }

  /** An extension at the end of `s` starts at its last dot. */
  lemma ExtensionAtLastDot(s: string, k: nat)
    requires k < |s| && IsExtension(s[k..])
    ensures LastDot(s) == Some(k)
  {
    assert forall m :: k < m < |s| ==> s[m] == s[k..][m - k];
    assert forall m :: k < m < |s| ==> s[m] != '.' by {
      forall m | k < m < |s|
        ensures s[m] != '.'
      {
        assert s[k..][1..][m - k - 1] == s[m];
      }
    }
  }

  /** The optional second group of the extension pattern adds nothing: a
      string looks like a link exactly when it has a protocol or the text
      after its last dot is two or more letters. */
  lemma IsURLIffLastDot(s: string)
    ensures IsURL(s) <==> HasProtocol(s) || EndsInLetterExtension(s)
  {
    if HasExtension(s) {
      var i :| 0 <= i < |s| && IsExtensionChain(s[i..]);
      var k := ExtensionChainEnds(s, i);
      ExtensionAtLastDot(s, k);
      assert s[k..][1..] == s[k + 1..];
    }
    if EndsInLetterExtension(s) {
      var k := LastDot(s).value;
      assert s[k..][1..] == s[k + 1..];
      assert IsExtension(s[k..]);
      assert IsExtensionChain(s[k..]);
    }
  }

  lemma LastDotLower(s: string)
    ensures LastDot(Lower(s)) == LastDot(s)
    decreases |s|
  {
    if s != [] {
      assert Lower(s)[..|s| - 1] == Lower(s[..|s| - 1]);
      LastDotLower(s[..|s| - 1]);
    }
  }

  /** Whether a string looks like a link does not depend on letter case. */
  lemma {:induction false} IsURLIgnoresCase(s: string)
    ensures IsURL(Lower(s)) <==> IsURL(s)
  {
    LowerIdempotent(s);
    LastDotLower(s);
    IsURLIffLastDot(s);
    IsURLIffLastDot(Lower(s));
    var d := LastDot(s);
    if d.Some? {
      var k := d.value;
      assert Lower(s)[k + 1..] == Lower(s[k + 1..]);
      assert AllLetters(Lower(s[k + 1..])) <==> AllLetters(s[k + 1..]);
    }
  }

  /** Normalizing a normalized link changes nothing. */
  lemma NormalizeIdempotent(s: string)
    ensures NormalizeURL(NormalizeURL(s)) == NormalizeURL(s)
  {
  }

  /** A normalized string always looks like a link. */
  lemma NormalizedIsURL(s: string)
    ensures IsURL(NormalizeURL(s))
  {
  }

  /** The comparison form is stable: an entry stored in comparison form
      compares as itself. */
  lemma CanonIdempotent(s: string)
    ensures IsURL(Canon(s)) <==> IsURL(s)
    ensures Canon(Canon(s)) == Canon(s)
  {
    if IsURL(s) {
      NormalizedIsURL(s);
    }
  }

  /** Two strings equal up to case normalize to strings equal up to case. */
  lemma NormalizeIgnoresCase(x: string, y: string)
    requires Lower(x) == Lower(y)
    ensures Lower(NormalizeURL(x)) == Lower(NormalizeURL(y))
  {
    if !HasProtocol(x) {
      LowerAppend(Https, x);
      LowerAppend(Https, y);
    }
  }

  /** `items.some(e => (canon ? Canon(e) : e).toLowerCase() === key)` */
  function SomeMatch(items: seq<string>, key: string, canon: bool): bool
    decreases |items|
  {
    items != [] && (Lower(if canon then Canon(items[0]) else items[0]) == key
                    || SomeMatch(items[1..], key, canon))
  }

  lemma {:induction false} SomeMatchIff(items: seq<string>, key: string, canon: bool)
    ensures SomeMatch(items, key, canon)
            <==> exists e :: e in items && Lower(if canon then Canon(e) else e) == key
    decreases |items|
  {
    if items != [] {
      SomeMatchIff(items[1..], key, canon);
      assert forall e :: e in items <==> e == items[0] || e in items[1..];
      if Lower(if canon then Canon(items[0]) else items[0]) == key {
        assert items[0] in items;
      }
    }
  }

  /** `isDuplicate(item, category, data)`: an absent category holds no
      duplicate; a link is compared in normalized form against the
      comparison form of every entry, plain text against every entry as it
      is; both ignoring case. */
  function IsDuplicate(item: string, category: string, data: Dict<seq<string>>): bool {
    if category !in data.vals then false
    else if IsURL(item) then SomeMatch(data.vals[category], Lower(NormalizeURL(item)), true)
    else SomeMatch(data.vals[category], Lower(item), false)
  }

  /** The duplicate policy stated without the search: nothing duplicates into
      an absent or empty category; otherwise a duplicate is an entry equal to
      the item ignoring case, where a link item is normalized first and an
      entry is normalized only if it looks like a link itself. */
  lemma IsDuplicateIff(item: string, category: string, data: Dict<seq<string>>)
    ensures category !in data.vals || data.vals[category] == [] ==> !IsDuplicate(item, category, data)
    ensures category in data.vals && !IsURL(item) ==>
              (IsDuplicate(item, category, data)
               <==> exists e :: e in data.vals[category] && Lower(e) == Lower(item))
    ensures category in data.vals && IsURL(item) ==>
              (IsDuplicate(item, category, data)
               <==> exists e :: e in data.vals[category] && Lower(Canon(e)) == Lower(NormalizeURL(item)))
  {
    if category in data.vals {
      SomeMatchIff(data.vals[category], Lower(NormalizeURL(item)), true);
      SomeMatchIff(data.vals[category], Lower(item), false);
    }
  }

  /** Whether an item is a duplicate does not depend on its letter case. */
  lemma DuplicateIgnoresCase(x: string, y: string, category: string, data: Dict<seq<string>>)
    requires Lower(x) == Lower(y)
    ensures IsDuplicate(x, category, data) == IsDuplicate(y, category, data)
  {
    IsURLIgnoresCase(x);
    IsURLIgnoresCase(y);
    NormalizeIgnoresCase(x, y);
  }

  /** A bare domain duplicates an entry that is the same link with a
      protocol, whatever the case: `a.com` against `https://A.com`. */
  lemma BareDomainDuplicatesLink()
    ensures IsDuplicate("a.com", "links", Dict(["links"], map["links" := ["https://A.com"]]))
  {
    BareDomainGetsProtocol();
    LinkKeepsProtocol("A.com");
    assert Https + "A.com" == "https://A.com";
    LinkLowered();
    var items := ["https://A.com"];
    assert Lower(Canon(items[0])) == Lower(NormalizeURL("a.com"));
  }

  /** `a.com` looks like a link and gains the `https://` prefix. */
  lemma BareDomainGetsProtocol()
    ensures IsURL("a.com") && Canon("a.com") == NormalizeURL("a.com") == "https://a.com"
  {
    var s := "a.com";
    assert IsExtensionChain(s[1..]) by {
      assert s[1..][1..] == "com";
    }
    assert !HasProtocol(s) by {
      assert |Lower(s)| == 5;
    }
  }

  /** A link that already has the `https://` prefix is its own comparison
      form. */
  lemma LinkKeepsProtocol(rest: string)
    ensures Canon(Https + rest) == Https + rest
  {
    LowerAppend(Https, rest);
    assert Lower(Https + rest)[..8] == Lower(Https) == Https;
  }

  lemma LinkLowered()
    ensures Lower("https://A.com") == "https://a.com" == Lower("https://a.com")
  {
  }

  /** The extension heuristic: `file.txt` looks like a link, `a.b1` does not. */
  lemma ExtensionExamples()
    ensures IsURL("file.txt")
    ensures !IsURL("a.b1")
  {
    var f := "file.txt";
    assert IsExtensionChain(f[4..]) by {
      assert f[4..][1..] == "txt";
    }
    var g := "a.b1";
    IsURLIffLastDot(g);
    assert LastDot(g) == Some(1) by {
      assert g[..3][..2][1] == '.';
    }
    assert g[2..][1] == '1';
    assert !HasProtocol(g) by {
      assert |Lower(g)| == 4;
    }
  }

  /** The command `cmd` completes `t` (already lower-cased): it starts with it
      ignoring case and is longer. */
  predicate Extends(cmd: string, t: string) {
    StartsWith(Lower(cmd), t) && Lower(cmd) != t
  }

  /** `commands.find(...)`: the index of the first command that extends `t`. */
  function FirstExtending(commands: seq<string>, t: string, from: nat): (r: Option<nat>)
    requires from <= |commands|
    decreases |commands| - from
    ensures r.Some? ==> from <= r.value < |commands| && Extends(commands[r.value], t)
                        && forall j :: from <= j < r.value ==> !Extends(commands[j], t)
    ensures r.None? ==> forall j :: from <= j < |commands| ==> !Extends(commands[j], t)
  {
    if from == |commands| then None
    else if Extends(commands[from], t) then Some(from)
    else FirstExtending(commands, t, from + 1)
  }

  /** `getAutoCompleteSuggestion(input, commands, isAuthenticated)`. */
  function AutoComplete(input: string, commands: seq<string>, authenticated: bool): (r: string)
    ensures input == "" || !authenticated || AllSpace(input) ==> r == ""
    ensures input != "" && authenticated ==>
              var t := Lower(Trim(input));
              && (r == "" <==> t == "" || forall j :: 0 <= j < |commands| ==> !Extends(commands[j], t))
              && (r != "" ==> exists j :: 0 <= j < |commands| && Extends(commands[j], t)
                                         && (forall k :: 0 <= k < j ==> !Extends(commands[k], t))
                                         && r == commands[j][|t|..]
                                         && t + Lower(r) == Lower(commands[j]))
  {
    TrimEmptyIff(input);
    if input == "" || !authenticated then ""
    else
      var t := Lower(Trim(input));
      if t == "" then ""
      else
        var m := FirstExtending(commands, t, 0);
        if m.None? then ""
        else
          CompletionOf(commands[m.value], t);
          commands[m.value][|t|..]
  }

  /** What a command adds to the text it extends: a non-empty rest that,
      appended to the text, spells the command ignoring case. */
  lemma CompletionOf(cmd: string, t: string)
    requires Extends(cmd, t)
    ensures |t| < |cmd| && t + Lower(cmd[|t|..]) == Lower(cmd)
  {
    var r := cmd[|t|..];
    assert Lower(r) == Lower(cmd)[|t|..];
    assert Lower(cmd) == Lower(cmd)[..|t|] + Lower(cmd)[|t|..];
  }
}

=== FILE: text.dfy ===
/** Optional values, used for regular-expression captures and lookups. */
module Wrappers {
  datatype Option<+T> = None | Some(value: T)
}

/**
 This module models the handful of JavaScript string primitives the terminal
 relies on: the character classes of regular expressions (`\s`, `\w`, `\d`,
 `.`), `toLowerCase`, `startsWith`, `includes`, `trim`, and the decimal
 rendering and parsing of integers used in messages and command arguments.
 */
module Text {

  /** Characters a regular-expression `.` refuses to match. */
  predicate IsLineTerminator(c: char) {
    c == '\n' || c == '\r' || c == '\U{2028}' || c == '\U{2029}'
  }

  /** JavaScript's WhiteSpace and LineTerminator characters: both the `\s`
      class of a regular expression and the set `trim` strips. */
  predicate IsSpace(c: char) {
    || c == ' ' || c == '\t' || c == '\U{000B}' || c == '\U{000C}'
    || IsLineTerminator(c)
    || c == '\U{00A0}' || c == '\U{1680}' || ('\U{2000}' <= c <= '\U{200A}')
    || c == '\U{202F}' || c == '\U{205F}' || c == '\U{3000}' || c == '\U{FEFF}'
  }

  predicate IsDigit(c: char) {
    '0' <= c <= '9'
  }

  predicate IsUpper(c: char) {
    'A' <= c <= 'Z'
  }

  predicate IsLetter(c: char) {
    'a' <= c <= 'z' || IsUpper(c)
  }

  /** The `\w` class. */
  predicate IsWordChar(c: char) {
    IsLetter(c) || IsDigit(c) || c == '_'
  }

  predicate AllLetters(s: string) {
    forall i :: 0 <= i < |s| ==> IsLetter(s[i])
  }

  predicate AllSpace(s: string) {
    forall i :: 0 <= i < |s| ==> IsSpace(s[i])
  }

  predicate IsWord(s: string) {
    |s| > 0 && forall i :: 0 <= i < |s| ==> IsWordChar(s[i])
  }

  predicate AllDigits(s: string) {
    forall i :: 0 <= i < |s| ==> IsDigit(s[i])
  }

  predicate NoLineTerminator(s: string) {
    forall i :: 0 <= i < |s| ==> !IsLineTerminator(s[i])
  }

  /** `toLowerCase` on one character, restricted to ASCII. */
  function LowerChar(c: char): (r: char)
    ensures !IsUpper(r)
    ensures IsLetter(c) <==> IsLetter(r)
    ensures !IsUpper(c) ==> r == c
  {
    if IsUpper(c) then (c as int + 32) as char else c
  }

  function Lower(s: string): (r: string)
    ensures |r| == |s|
    ensures forall i :: 0 <= i < |s| ==> r[i] == LowerChar(s[i])
  {
    seq(|s|, i requires 0 <= i < |s| => LowerChar(s[i]))
  }

  lemma LowerIdempotent(s: string)
    ensures Lower(Lower(s)) == Lower(s)
  {
  }

  lemma LowerAppend(a: string, b: string)
    ensures Lower(a + b) == Lower(a) + Lower(b)
  {
  }

  /** `s.startsWith(p)`. */
  predicate StartsWith(s: string, p: string) {
    |p| <= |s| && s[..|p|] == p
  }

  /** `s.includes(t)`. */
  predicate Contains(s: string, t: string) {
    exists i :: 0 <= i <= |s| - |t| && StartsWith(s[i..], t)
  }

  /** `trimStart`: drops the leading white space and nothing else. */
  function TrimStart(s: string): (r: string)
    decreases |s|
    ensures |r| <= |s| && r == s[|s| - |r|..]
    ensures AllSpace(s[..|s| - |r|])
    ensures r == [] || !IsSpace(r[0])
  {
    if |s| > 0 && IsSpace(s[0]) then
      var r := TrimStart(s[1..]);
      assert s[1..][|s| - 1 - |r|..] == s[|s| - |r|..];
      assert s[..|s| - |r|] == [s[0]] + s[1..][..|s| - 1 - |r|];
      r
    else s
  }

  /** `trimEnd`: drops the trailing white space and nothing else. */
  function TrimEnd(s: string): (r: string)
    decreases |s|
    ensures |r| <= |s| && r == s[..|r|]
    ensures AllSpace(s[|r|..])
    ensures r == [] || !IsSpace(r[|r| - 1])
  {
    if |s| > 0 && IsSpace(s[|s| - 1]) then
      var r := TrimEnd(s[..|s| - 1]);
      assert s[..|s| - 1][..|r|] == s[..|r|];
      assert s[|r|..] == s[..|s| - 1][|r|..] + [s[|s| - 1]];
      r
    else s
  }

  /** `r` is the slice of `s` that starts at `i`, with only white space
      before and after it. */
  predicate Between(s: string, i: int, r: string) {
    0 <= i <= |s| - |r| && r == s[i..i + |r|] && AllSpace(s[..i]) && AllSpace(s[i + |r|..])
  }

  /** A prefix `r` of a suffix `a` of `s`, both cut at white space, is the
      slice of `s` between two white-space runs. */
  lemma TrimSlices(s: string, a: string, r: string)
    requires |a| <= |s| && a == s[|s| - |a|..] && AllSpace(s[..|s| - |a|])
    requires |r| <= |a| && r == a[..|r|] && AllSpace(a[|r|..])
    ensures Between(s, |s| - |a|, r)
  {
    var i := |s| - |a|;
    assert s[i + |r|..] == a[|r|..];
  }

  /** `trim`: the text between the leading and the trailing white space. */
  function Trim(s: string): (r: string)
    ensures Between(s, |s| - |TrimStart(s)|, r)
    ensures r == [] || (!IsSpace(r[0]) && !IsSpace(r[|r| - 1]))
  {
    var a := TrimStart(s);
    var r := TrimEnd(a);
    TrimSlices(s, a, r);
    TrimmedEnds(a, r);
    r
  }

  /** A prefix of a text that does not start with white space, ending in a
      character that is not white space, is trimmed on both sides. */
  lemma TrimmedEnds(a: string, r: string)
    requires |r| <= |a| && r == a[..|r|]
    requires a == [] || !IsSpace(a[0])
    requires r == [] || !IsSpace(r[|r| - 1])
    ensures r == [] || (!IsSpace(r[0]) && !IsSpace(r[|r| - 1]))
  {
    if r != [] {
      assert r[0] == a[0];
    }
  }

  /** A string that neither starts nor ends with white space. */
  predicate IsTrimmed(s: string) {
    s == [] || (!IsSpace(s[0]) && !IsSpace(s[|s| - 1]))
  }

  /** No `\w` character is white space or a line terminator. */
  lemma WordCharIsNoSpace(c: char)
    requires IsWordChar(c)
    ensures !IsSpace(c) && !IsLineTerminator(c)
  {
  }

  lemma WordIsTrimmed(s: string)
    requires IsWord(s)
    ensures IsTrimmed(s)
  {
    WordCharIsNoSpace(s[0]);
    WordCharIsNoSpace(s[|s| - 1]);
  }

  lemma TrimStartOfTrimmed(s: string)
    requires IsTrimmed(s)
    ensures TrimStart(s) == s
  {
  }

  lemma TrimEndOfTrimmed(s: string)
    requires IsTrimmed(s)
    ensures TrimEnd(s) == s
  {
  }

  lemma TrimOfTrimmed(s: string)
    requires IsTrimmed(s)
    ensures Trim(s) == s
  {
    TrimStartOfTrimmed(s);
    TrimEndOfTrimmed(s);
  }

  /** Trimming twice is trimming once. */
  lemma TrimIdempotent(s: string)
    ensures Trim(Trim(s)) == Trim(s)
  {
    var t := Trim(s);
    TrimStartOfTrimmed(t);
    TrimEndOfTrimmed(t);
  }

  /** `trim` yields the empty string exactly on white-space-only input. */
  lemma TrimEmptyIff(s: string)
    ensures Trim(s) == [] <==> AllSpace(s)
  {
    var a := TrimStart(s);
    var r := TrimEnd(a);
    if a != [] {
      assert a[0] == s[|s| - |a|];
      assert r != [];
    }
  }

  function DigitChar(d: nat): (c: char)
    requires d < 10
    ensures IsDigit(c)
  {
    "0123456789"[d]
  }

  function DigitValue(c: char): (d: nat)
    requires IsDigit(c)
    ensures d < 10
  {
    c as int - '0' as int
  }

  /** Decimal rendering of a natural number, as a template literal shows it. */
  function NatToString(n: nat): (r: string)
    decreases n
    ensures |r| > 0 && AllDigits(r)
  {
    if n < 10 then [DigitChar(n)] else NatToString(n / 10) + [DigitChar(n % 10)]
  }

  /** Decimal rendering of an integer, with a leading minus sign when negative. */
  function IntToString(n: int): (r: string)
    ensures |r| > 0
    ensures n >= 0 <==> r[0] != '-'
  {
    if n < 0 then "-" + NatToString(-n) else NatToString(n)
  }

  /** `parseInt` of a string of decimal digits. */
  function DigitsValue(s: string): nat
    requires AllDigits(s)
    decreases |s|
  {
    if s == [] then 0 else DigitsValue(s[..|s| - 1]) * 10 + DigitValue(s[|s| - 1])
  }

  /** Parsing the decimal rendering of a number gives the number back. */
  lemma {:induction false} DigitsRoundTrip(n: nat)
    ensures DigitsValue(NatToString(n)) == n
    decreases n
  {
    if n >= 10 {
      var s := NatToString(n);
      assert s[..|s| - 1] == NatToString(n / 10);
      DigitsRoundTrip(n / 10);
    }
  }

  /** `lines.join(sep)`. */
  function Join(lines: seq<string>, sep: string): (r: string)
    decreases |lines|
  {
    if lines == [] then ""
    else if |lines| == 1 then lines[0]
    else Join(lines[..|lines| - 1], sep) + sep + lines[|lines| - 1]
  }
}

=== FILE: usage_sort.dfy ===
/**
 The ordering behind the `stats` command's "most used" list
 (`src/modules/commandHandlers.js`): the entries of the frequency object,
 sorted by non-increasing count with `Array.prototype.sort`, which is stable,
 so equal counts keep the order the object enumerates them in.
 */
module UsageSort {
  import opened Dict

  /** One `[command, count]` entry of the frequency object. */
  datatype Usage = Usage(command: string, count: int)

  /** `Object.entries(freq)`, in key order. */
  function Entries(freq: Dict<int>): (r: seq<Usage>)
    requires Valid(freq)
    ensures |r| == |freq.keys|
    ensures forall i :: 0 <= i < |r| ==> r[i] == Usage(freq.keys[i], freq.vals[freq.keys[i]])
  {
    seq(|freq.keys|, i requires 0 <= i < |freq.keys| => Usage(freq.keys[i], freq.vals[freq.keys[i]]))
  }

  ghost predicate Sorted(s: seq<Usage>) {
    forall i, j :: 0 <= i < j < |s| ==> s[i].count >= s[j].count
  }

  /** The entries with a given count, in their order in `s`. */
  function WithCount(s: seq<Usage>, c: int): (r: seq<Usage>)
    decreases |s|
  {
    if s == [] then []
    else (if s[0].count == c then [s[0]] else []) + WithCount(s[1..], c)
  }

  lemma SortedCons(h: Usage, s: seq<Usage>)
    requires Sorted(s) && forall u :: u in s ==> h.count >= u.count
    ensures Sorted([h] + s)
  {
    forall i, j | 0 <= i < j < |[h] + s|
      ensures ([h] + s)[i].count >= ([h] + s)[j].count
    {
      if i == 0 { assert ([h] + s)[j] == s[j - 1] && s[j - 1] in s; }
    }
  }

  /** In a sorted sequence the first entry outranks or ties with all. */
  lemma FirstOutranks(t: seq<Usage>)
    requires Sorted(t) && t != []
    ensures forall u :: u in t ==> t[0].count >= u.count
  {
    forall u | u in t ensures t[0].count >= u.count {
      var j :| 0 <= j < |t| && t[j] == u;
      assert j == 0 || t[0].count >= t[j].count;
    }
  }

  /** Places `x` after every entry of the sorted `t` whose count is at least
      its own, so it follows the entries it ties with. */
  function Insert(t: seq<Usage>, x: Usage): (r: seq<Usage>)
    requires Sorted(t)
    decreases |t|
    ensures |r| == |t| + 1
    ensures forall u :: u in r <==> u in t || u == x
    ensures Sorted(r)
    ensures multiset(r) == multiset(t) + multiset{x}
  {
    if t == [] then [x]
    else if t[0].count < x.count then
      FirstOutranks(t);
      SortedCons(x, t);
      [x] + t
    else
      var rest := Insert(t[1..], x);
      assert t == [t[0]] + t[1..];
      FirstOutranks(t);
      assert forall u :: u in t[1..] ==> u in t;
      SortedCons(t[0], rest);
      [t[0]] + rest
  }

  /** The stable sort by non-increasing count. */
  function SortDesc(s: seq<Usage>): (r: seq<Usage>)
    decreases |s|
    ensures Sorted(r)
    ensures multiset(r) == multiset(s)
    ensures |r| == |s|
  {
    if s == [] then []
    else
      assert s == s[..|s| - 1] + [s[|s| - 1]];
      Insert(SortDesc(s[..|s| - 1]), s[|s| - 1])
  }

  lemma {:induction false} WithCountAppend(a: seq<Usage>, b: seq<Usage>, c: int)
    ensures WithCount(a + b, c) == WithCount(a, c) + WithCount(b, c)
    decreases |a|
  {
    if a != [] {
      assert (a + b)[0] == a[0];
      assert (a + b)[1..] == a[1..] + b;
      WithCountAppend(a[1..], b, c);
    } else {
      assert a + b == b;
    }
  }

  lemma {:induction false} WithCountAbsent(s: seq<Usage>, c: int)
    requires forall u :: u in s ==> u.count != c
    ensures WithCount(s, c) == []
    decreases |s|
  {
    if s != [] {
      assert s[0] in s;
      assert forall u :: u in s[1..] ==> u in s;
      WithCountAbsent(s[1..], c);
    }
  }

  /** `WithCount` of a sequence with a known first entry. */
  lemma WithCountCons(h: Usage, s: seq<Usage>, c: int)
    ensures WithCount([h] + s, c) == (if h.count == c then [h] else []) + WithCount(s, c)
  {
    assert ([h] + s)[0] == h;
    assert ([h] + s)[1..] == s;
  }

  /** An entry that outranks the whole sorted sequence goes in front. */
  lemma InsertInFront(t: seq<Usage>, x: Usage, c: int)
    requires Sorted(t) && t != [] && t[0].count < x.count
    ensures WithCount(Insert(t, x), c) == WithCount(t, c) + (if x.count == c then [x] else [])
  {
    assert Insert(t, x) == [x] + t;
    WithCountCons(x, t, c);
    if x.count == c {
      FirstOutranks(t);
      WithCountAbsent(t, c);
    }
  }

  lemma InsertBehindShape(t: seq<Usage>, x: Usage)
    requires Sorted(t) && t != [] && t[0].count >= x.count
    ensures Insert(t, x) == [t[0]] + Insert(t[1..], x)
  {
  }

  /** Putting the same entry in front of two sequences keeps the relation
      between their count groups. */
  lemma WithCountConsBoth(h: Usage, r: seq<Usage>, u: seq<Usage>, own: seq<Usage>, c: int)
    requires WithCount(r, c) == WithCount(u, c) + own
    ensures WithCount([h] + r, c) == WithCount([h] + u, c) + own
  {
    var head := if h.count == c then [h] else [];
    WithCountCons(h, r, c);
    WithCountCons(h, u, c);
    assert head + (WithCount(u, c) + own) == (head + WithCount(u, c)) + own;
  }

  /** An entry that does not outrank the first goes behind it. */
  lemma InsertBehind(t: seq<Usage>, x: Usage, c: int)
    requires Sorted(t) && t != [] && t[0].count >= x.count
    requires WithCount(Insert(t[1..], x), c) == WithCount(t[1..], c) + (if x.count == c then [x] else [])
    ensures WithCount(Insert(t, x), c) == WithCount(t, c) + (if x.count == c then [x] else [])
  {
    InsertBehindShape(t, x);
    WithCountConsBoth(t[0], Insert(t[1..], x), t[1..], if x.count == c then [x] else [], c);
    assert [t[0]] + t[1..] == t;
  }

  /** Inserting adds `x` at the end of its own count group and leaves every
      other group as it was. */
  lemma {:induction false} InsertStable(t: seq<Usage>, x: Usage, c: int)
    requires Sorted(t)
    ensures WithCount(Insert(t, x), c) == WithCount(t, c) + (if x.count == c then [x] else [])
    decreases |t|
  {
    var own := if x.count == c then [x] else [];
    if t == [] {
      WithCountCons(x, [], c);
      assert [x] + [] == [x];
    } else if t[0].count < x.count {
      InsertInFront(t, x, c);
    } else {
      InsertStable(t[1..], x, c);
      InsertBehind(t, x, c);
    }
  }

  /** The sort is stable: for every count, the entries with that count appear
      in the result in the same order as in the input. */
  lemma {:induction false} SortDescStable(s: seq<Usage>, c: int)
    ensures WithCount(SortDesc(s), c) == WithCount(s, c)
    decreases |s|
  {
    if s != [] {
      var init := s[..|s| - 1];
      var x := s[|s| - 1];
      var own := if x.count == c then [x] else [];
      assert s == init + [x];
      assert SortDesc(s) == Insert(SortDesc(init), x);
      SortDescStable(init, c);
      InsertStable(SortDesc(init), x, c);
      WithCountAppend(init, [x], c);
      WithCountCons(x, [], c);
      assert [x] + [] == [x];
      calc {
        WithCount(SortDesc(s), c);
        WithCount(SortDesc(init), c) + own;
        WithCount(init, c) + own;
        WithCount(init, c) + WithCount([x], c);
        WithCount(s, c);
      }
    }
  }

  /** `.slice(0, 5)` of the sorted entries. */
  function TopFive(s: seq<Usage>): (r: seq<Usage>)
    ensures |r| == if |s| < 5 then |s| else 5
    ensures Sorted(r)
    ensures multiset(r) <= multiset(s)
    ensures r == SortDesc(s)[..|r|]
  {
    var sorted := SortDesc(s);
    var r := sorted[..if |s| < 5 then |s| else 5];
    assert sorted == r + sorted[|r|..];
    r
  }

  /** No entry left out of the top list outranks one that made it: an entry
      whose count exceeds that of a listed entry is listed itself. */
  lemma TopFiveIsTop(s: seq<Usage>, listed: Usage, e: Usage)
    requires listed in TopFive(s) && e in s && e.count > listed.count
    ensures e in TopFive(s)
  {
    var sorted := SortDesc(s);
    var r := TopFive(s);
    assert e in multiset(sorted);
    var j :| 0 <= j < |sorted| && sorted[j] == e;
    var i :| 0 <= i < |r| && r[i] == listed;
    assert sorted[i] == listed;
    assert r[j] == e;
  }
}
